=== FILE: README.md ===
# Grass-Mud-Horse VM, modelled in Dafny

The Go package `gmh` runs programs in Grass-Mud-Horse. This language is
Whitespace spelled with three Chinese characters: 草 (space), 泥 (tab) and
马 (line feed). A program is a list of instruction tokens. Each token starts
with a family prefix: Stack, Math, Heap, Flow or I/O. The sub-opcode and an
optional number literal follow the prefix. `Exec` first scans the program
for label marks. It then runs a loop that dispatches one instruction per
iteration. The loop stops at an end instruction, at the 河蟹 token, at the
first error, or when the interrupter fires.

This project models that core as pure functions over immutable data:

- `defs.dfy` (module `Defs`)
  - Tokens are sequences of `Sym`. A `Sym` is one of the three markers, or any other character.
  - It holds the opcode constants of def.go.
  - `HasPrefix` stands for `strings.HasPrefix`.
  - The `VM` record is defined here: data stack, heap, input buffer and input callback.
- `stack.dfy` (`Stacks`): the list-backed stack of stack.go, with `Push`, `Pop` and `Clear`. The `PushThenPop`, `PopEmpty`, `PopNonEmpty` and `PushOnTop` rows of the table specify push and pop. It is a sequence whose top is at index 0. Its entries are `Option`s, so a pop from an empty stack gives `None`, as Go's `nil` does.
- `heap.dfy` (`Heaps`): `checkHeap`, with its bound of 65535 cells and its growth on demand.
- `goint.dfy` (`GoInt`): Go's truncating `/` and `%`.
- `numbers.dfy` (`Numbers`): `parseNum`, over an explicit reading of `strings.Trim`, `strings.LastIndex`, the sign rewriting and `strconv.ParseInt(_, 2, 32)`.
- `faults.dfy` (`Faults`): the errors `Exec` can return.
- `ops.dfy` (`Ops`): `opStack`, `opMath` and `opHeap`, which return the new state together with the error.
- `io.dfy` (`Io`): `readInput` and the four I/O sub-opcodes that `Exec` handles inline.
- `exec.dfy` (`Vm`): the label pre-scan, one loop iteration (`Step`), the loop (`Run`) and `Exec`.
- `control.dfy` (`Control`): what each Flow instruction does, stated one instruction at a time.
- `programs.dfy` (`Programs`) and `runs.dfy` (`Runs`): whole programs run through `Exec`:
  - the endless loop of the package's TestInterrupt (vm_test.go:40-49);
  - the store-and-retrieve program of the package's TestHeap (vm_test.go:24-30);
  - a separate program, push 1, push 0, div, that stops with `DivideByZero` (vm.go:327-331). No test of the package divides by zero.

Abstractions:

- **Interrupter.** The interrupter callback becomes a `budget`: the number of loop iterations allowed before the run is interrupted.
- **Input callback.** The input callback becomes a `Host` that hands out a fixed list of chunks in order, then an empty string once the chunks run out. The Host records the output it was handed at each refill.
- **Output.** Output is a sequence of items. `Char(n)` is what `string(n)` appends, and `Num(n)` is what `fmt.Sprintf("%d", n)` appends.
- **State after an error.** The stack and heap survive an error (Go keeps them in the `VM` struct), so every handler returns its state even when it fails.

Go panics in three cases, and the model reports each as a fault:

- `%` by zero (vm.go:338) becomes `ModuloByZero`.
- A store outside 0 .. 65534 becomes `HeapInaccessible`, with no write. Go records the error and then writes `this.heap[y]` anyway, which panics (vm.go:362-366).
- A retrieve in range but past the heap's end becomes `UnallocatedAddress` (vm.go:383).

## The VM record

The `VM` struct in def.go:10-14 has no `input` or `buf` field, but vm.go
uses both (vm.go:15, 29, 39-46). The model's `VM` has both fields.

## Model

| member | source | states |
|---|---|---|
| Stacks.Clear | stack.go:34-37 | clearing leaves an empty stack, from which a pop yields nothing and changes nothing |
| Stacks.PushThenPop | stack.go:17-32 | popping right after a push gives back the pushed value and the stack as it was before the push |
| Stacks.PopEmpty | stack.go:22-26 | popping an empty stack yields nil and leaves the stack unchanged |
| Stacks.PopNonEmpty | stack.go:22-32 | popping a non-empty stack yields its front entry and removes only that entry; pushing it back restores the stack |
| Stacks.PushOnTop | stack.go:17-20 | a push adds exactly one entry, at the front, and leaves every other entry in place |
| Stacks.DrainPushAll | stack.go:17-32 | pushing a sequence and then popping until nil returns the pushed values in reverse order, followed by what was already there |
| Stacks.PopOrderIsReversePushOrder | stack_test.go:9-26 | on a fresh stack, values come off in the reverse of the order they were pushed in (LIFO) |
| Heaps.Grow | vm.go:398-406 | appending zero cells until the index fits leaves the heap exactly one cell longer than the index, keeps the old cells, and makes every new cell 0 |
| Heaps.CheckHeap | vm.go:392-409 | the check succeeds exactly for 0 <= i < 65535; with alloc it grows the heap to cover i, zero-filled and keeping old cells; otherwise the heap is unchanged |
| Defs.HasPrefixIsSlice | vm.go:62-65 | the prefix test holds exactly when the token is at least as long as the prefix and starts with it |
| Defs.PrefixFreeDispatch | vm.go:85-92 | within a prefix-free code table, at most one code can be a prefix of a given token, so the order of the switch cases cannot matter |
| Defs.FamiliesAreExclusive | def.go:17-23 | the five family prefixes form a prefix-free code table, so no token belongs to two families |
| Defs.StackCodesAreExclusive | def.go:26-33 | the six stack sub-opcodes form a prefix-free code table |
| Defs.MathAndHeapCodesAreExclusive | def.go:36-48 | the math and heap sub-opcode tables are prefix-free, and every math sub-opcode is two symbols long |
| Defs.FlowCodesAreExclusive | def.go:51-60 | the flow sub-opcodes form a prefix-free table of two-symbol codes, and 河蟹 starts with no family prefix |
| Defs.IoCodesAreExclusive | def.go:63-75 | the I/O sub-opcodes form a prefix-free table of two-symbol codes, and the three literal symbols are distinct |
| Defs.New | vm.go:11-17 | a new VM has an empty stack, an empty heap and an empty input buffer |
| GoInt.QuotRem | vm.go:327-339 | Go's `/` and `%` satisfy y == x*(y/x) + y%x with \|y%x\| < \|x\|, and a non-zero remainder has the sign of y |
| GoInt.RemOfMagnitudes | vm.go:337-338 | Go's `%` is the remainder of the magnitudes, negated when y is negative |
| Numbers.TrimLeft | vm.go:412 | the result is a suffix of the literal that does not start with a space, and everything dropped is spaces |
| Numbers.TrimRight | vm.go:412 | the result is a prefix of the literal that does not end with a space, and everything dropped is spaces |
| Numbers.LastIndex | vm.go:419 | the result is the index of the last 马, or -1 when there is none |
| Numbers.ParseInt32Base2 | vm.go:436 | a successful base-2 parse lies in the signed 32-bit range |
| Numbers.Signed32 | vm.go:436 | ParseInt's bit size 32 accepts a magnitude of up to 2^31-1, or 2^31 when negative, and gives the value of that magnitude with the right sign |
| Numbers.ParseNum | vm.go:411-441 | a decoded literal lies in the signed 32-bit range; a literal that is empty once spaces are trimmed fails |
| Numbers.SpellBits | vm.go:433-434 | rewriting 草 to 0 and 泥 to 1 gives a binary numeral whose value is the base-2 value of the symbols |
| Numbers.ParseSigned | vm.go:425-436 | with a '-' or no sign in front of a numeral without its own sign, ParseInt fails on an empty or non-binary numeral, and otherwise gives the numeral's value with that sign, within 32 bits |
| Numbers.PureSpelling | vm.go:433-436 | a literal in the three marker symbols spells a binary numeral exactly when it has no 马; that numeral has the symbols' value and never starts with a sign |
| Numbers.SpellingOfPure | vm.go:419-436 | what ParseInt is given fails when a 马 is left in the literal, and otherwise reads the literal as its sign symbol and its bits |
| Numbers.ParseNumMatchesReading | vm.go:411-441 | for a literal written only in 草, 泥 and 马, parseNum agrees with the independent reading: the body up to the first 马 is the number, and a second 马 makes it fail |
| Numbers.ReadingOfTerminated | vm.go:419-423 | the reading of a literal without a 马 is its bits; with one 马, only the part before the 马 counts |
| Numbers.PlainLiteral | vm.go:411-441 | a literal made only of digit symbols decodes to the value of its bits (with its sign symbol when signed) |
| Numbers.TerminatedLiteral | vm.go:419-423 | digit symbols followed by 马 and a tail without 马 decode as the digits alone: the tail is ignored |
| Numbers.SignedLiteral | vm.go:425-436 | a signed literal 草 or 泥 followed by bits decodes to plus or minus the value of the bits, and fails outside 32 bits |
| Numbers.RoundTrip | vm.go:411-441 | every 32-bit value (non-negative when unsigned) encoded as sign symbol and bits decodes back to itself, with or without a trailing 马 and junk after it |
| Numbers.ParseNumExamples | vm_test.go:10-14 | 泥草草 unsigned is 4, 草泥草草 signed is 4 and 泥泥泥草 signed is -6 |
| Numbers.SmallSignedLiterals | vm.go:425-436 | the signed literals 草泥 and 草草 decode to 1 and 0 |
| Numbers.LabelOne | vm.go:419-423 | the unsigned label 泥马 decodes to 1 |
| Numbers.EmptyLiteralFails | vm.go:412-417 | an empty literal and one made only of spaces both fail |
| Numbers.UnsignedOutOfRangeFails | vm.go:436 | an unsigned literal whose value exceeds 2^31-1 fails |
| Numbers.SignedOutOfRangeFails | vm.go:425-436 | a positive literal above 2^31-1 fails; a negative one fails too, except exactly -2^31 |
| Numbers.LeadingTerminatorFails | vm.go:419-423 | a literal that starts with 马 is not cut at that 马, so the 马 reaches ParseInt and the literal fails |
| Numbers.SecondTerminatorFails | vm.go:419-423 | a literal with two 马 is cut only at the last one, so the first 马 stays and the literal fails |
| Ops.PopOntoMoves | vm.go:257-260 | popping k entries onto a temporary stack leaves the stack minus its top k entries, with those entries reversed on the temporary stack |
| Ops.RestoreMoves | vm.go:266-274 | popping the temporary stack back until nil pushes its entries in reverse order onto the stack |
| Ops.CopyNth | vm.go:251-277 | when the n-th entry exists (n counted from 1), copy pushes that entry on top and leaves every other entry in place |
| Ops.CopyRestores | vm.go:257-276 | the copy's pop-k, pop-one, push-back and restore sequence gives back exactly the original stack |
| Ops.PopTimes | vm.go:296-298 | popping k times removes the top k entries (none for k <= 0), stopping quietly at the bottom |
| Ops.SlideN | vm.go:288-301 | slide keeps the top entry and drops the n entries below it |
| Ops.OpStack | vm.go:235-305 | a stack instruction fails only on a bad literal, and then leaves the stack unchanged |
| Ops.PushLiteral | vm.go:237-244 | push puts the decoded signed literal on top; a bad literal is an error and pushes nothing |
| Ops.DuplicateTop | vm.go:245-250 | duplicate pushes the top entry twice after popping it, so a non-empty stack gains a second copy of its top; an empty stack gets two nils |
| Ops.CopyNthEntry | vm.go:251-277 | copy n puts a second copy of the n-th entry on top and changes nothing else |
| Ops.SwapTopTwo | vm.go:278-284 | swap exchanges the top two entries and leaves the rest |
| Ops.DiscardTop | vm.go:285-287 | discard removes the top entry, if there is one |
| Ops.SlideBelowTop | vm.go:288-301 | slide n keeps the top and removes the n entries below it |
| Ops.UnknownStackCode | vm.go:236-302 | a stack instruction with no known sub-opcode does nothing and is no error |
| Ops.CopyOfOneDuplicates | vm.go:251-277 | copy 1 (and any n below 1) acts like duplicate |
| Ops.OpMath | vm.go:308-345 | math pops two operands x (top) and y and pushes y+x, y-x, y*x, Go's y/x or y%x; a missing operand, a zero divisor or an unknown sub-opcode is an error that pushes nothing |
| Ops.OpHeap | vm.go:348-390 | store pops a value and an address and writes the value there, growing the heap; retrieve pops an address and pushes that cell; missing operands, addresses outside 0 .. 65534, a retrieve past the heap's end and unknown sub-opcodes are errors that leave the heap unchanged; the heap never grows past 65535 cells |
| Ops.StoreThenRetrieve | vm.go:350-384 | retrieving an address right after storing a value there gives back that value |
| Io.ReadInput | vm.go:33-52 | with no callback, the read is a space and nothing changes; otherwise the byte read is the head of the pending stream (buffer, then the callback's chunks), or a space when the stream is exhausted; nothing already output is lost |
| Io.ReadsSplitStream | vm.go:39-50 | k reads take a prefix of the stream, and the rest of the stream remains to be read |
| Io.ReadsFollowStream | vm.go:33-52 | k reads return exactly the first k bytes of the stream and leave the remainder |
| Io.NoInputReadsBlanks | vm.go:34-37 | with no callback, every read returns a space and the VM is unchanged |
| Io.DigitValue | vm.go:125-126 | ParseInt in base 10 of the string of the byte read succeeds exactly for '0' .. '9' and gives that digit; otherwise the value is 0 |
| Io.Print | vm.go:97-108 | print pops the top and appends it to the output as a character or a number; with nothing on top it appends nothing |
| Io.Scan | vm.go:109-130 | scan pops an address and reads one byte; an address in range gets the byte (or its digit value), growing the heap; an address out of range is left alone |
| Io.OpIo | vm.go:92-131 | an I/O instruction keeps the call stack and all output so far, and keeps the heap within its bound; only scan-num of a non-digit is an error; unknown I/O codes do nothing |
| Vm.ResolvesMark | vm.go:65-70 | recording a mark's label keeps the table's invariant: each label maps to its last mark so far |
| Vm.ScanFromResolves | vm.go:59-76 | the scan fails exactly when some mark's literal does not decode; otherwise the table maps each label to its last mark |
| Vm.ScanLabels | vm.go:59-76 | the pre-scan fails exactly when the program has a mark whose label does not decode; otherwise it resolves every mark |
| Vm.LabelsAreLastMarks | vm.go:59-76 | a label is in the table exactly when the program marks it, and it maps to the last such mark |
| Vm.Continue | vm.go:226-228 | after a handler, the loop stops exactly when there is an error, and otherwise moves to the next instruction |
| Vm.Branch | vm.go:170-179 | a jump to a declared label goes just after its mark; an undeclared label falls through to the next instruction; a bad literal stops Exec |
| Vm.StepFlow | vm.go:132-219 | a flow instruction changes only the data stack and the call stack; the call stack gains this call's index, loses its top, or stays; the next counter is the following instruction, just after a label's table entry, or just after the saved index |
| Vm.StepStack | vm.go:86-87 | a stack instruction keeps the call stack and output, and continues with the next instruction unless it fails |
| Vm.StepMath | vm.go:88-89 | a math instruction keeps the call stack and output, and continues with the next instruction unless it fails |
| Vm.StepHeap | vm.go:90-91 | a heap instruction keeps the call stack and output, and continues with the next instruction unless it fails |
| Vm.StepIo | vm.go:92-131 | an I/O instruction keeps the call stack and all output so far, and continues with the next instruction unless it fails |
| Vm.Step | vm.go:84-222 | one iteration loses no output and keeps the heap within its bound; when labels and saved returns point into the program, the next counter stays within it |
| Vm.StepKeepsCallSites | vm.go:147-169 | every saved return point stays the index of a call instruction, because only a call pushes, and it pushes its own index |
| Vm.Run | vm.go:78-229 | the loop ends without error once the counter is past the program, and is interrupted when the budget is spent first |
| Vm.BodyGrows | vm.go:84-222 | every loop iteration of a program loses no output and keeps the heap within its bound |
| Vm.RunGrows | vm.go:78-229 | a whole run loses no output and keeps the heap within its bound |
| Vm.MoreBudget | vm.go:78-82 | a run that was not interrupted gives the same result with any larger budget |
| Vm.RunNext | vm.go:78-229 | an iteration that moves on continues the run from the new counter with one unit of budget less |
| Vm.RunHalt | vm.go:78-229 | an iteration that stops ends the run with its configuration and error |
| Vm.ExecRuns | vm.go:55-78 | after a successful pre-scan, Exec is the loop from counter 0 with an empty call stack and no output |
| Vm.StuckRun | vm.go:78-82 | an instruction that leads back to itself unchanged runs until the interrupter fires |
| Vm.EntersLoop | vm.go:78-82 | a step into such a self-loop also runs until the interrupter fires |
| Vm.Exec | vm.go:55-232 | a mark with a bad label fails before any instruction runs, with no output and the VM untouched; output is never lost; the heap stays within 65535 cells |
| Vm.ExecBudget | vm.go:78-82 | a run that was not interrupted is unaffected by a larger budget |
| Control.FlowDispatch | vm.go:132-134 | a token with the flow prefix goes to the flow handler with the prefix removed |
| Control.EndHalts | vm.go:137-138 | end stops Exec without error and changes nothing; so does the whole token 河蟹 (vm.go:220-221) |
| Control.MarkIsSkipped | vm.go:139-146 | a mark does nothing when executed: it only moves on to the next instruction |
| Control.CallStep | vm.go:147-160 | a call to a label in the table saves its own index and continues just after the label's mark |
| Control.CallEntersAfterMark | vm.go:147-160 | a call to a declared label saves its index and continues just after the last mark of that label; a call to an undeclared label still saves its index, then stops Exec with LabelNotFound |
| Control.CallWithBadLiteral | vm.go:147-152 | a call whose label does not decode stops Exec and saves nothing |
| Control.ReturnResumesAfterCall | vm.go:161-169 | return pops the saved index and resumes just after that call instruction; with nothing saved it stops Exec with CannotReturn |
| Control.CallThenReturn | vm.go:147-169 | the return that matches a call resumes just after that call, with the caller's call stack |
| Control.JumpGoesAfterMark | vm.go:170-179 | jump goes just after the label's mark; an undeclared label falls through; a bad literal stops Exec |
| Control.ConditionalJump | vm.go:180-217 | jump-if-zero and jump-if-negative pop the top and fail on an empty stack; the label is decoded only when the jump is taken; a jump not taken moves to the next instruction |
| Control.FamilyDispatch | vm.go:85-92 | a stack, math, heap or I/O token goes to its own handler with its family prefix removed |
| Programs.SpinMarksOne | vm_test.go:40-49 | the first instruction of TestInterrupt's loop, 马草草泥马, marks label 1 |
| Programs.SpinJumpIsNoMark | vm_test.go:40-49 | the second instruction of the loop, 马草马泥马, declares no label |
| Programs.SpinScans | vm_test.go:40-49 | the loop's pre-scan succeeds |
| Programs.SpinLabels | vm_test.go:40-49 | the loop's table maps label 1 to the mark at index 0 |
| Programs.SpinMarks | vm_test.go:40-49 | executing the loop's mark moves to its jump |
| Programs.SpinJumps | vm_test.go:40-49 | the loop's jump returns to itself and changes nothing |
| Programs.SpinRun | vm_test.go:40-49 | from the start, the loop runs until the budget is spent |
| Programs.SpinIsInterrupted | vm_test.go:40-49 | whatever the budget and the VM, TestInterrupt's program ends interrupted, with no output and the VM unchanged |
| Runs.NoMarksScans | vm.go:59-76 | a program without a mark always passes the pre-scan |
| Runs.RunsThrough | vm.go:78-229 | a run whose iterations follow a trace of configurations, then stop, ends with the trace's last configuration and error, given enough budget |
| Runs.PushStep | vm.go:237-244 | a push of a literal that decodes to v moves on with v on top of the stack |
| Runs.HeapTestScans | vm_test.go:24-30 | TestHeap's program passes the pre-scan |
| Runs.HeapTestPushesOne | vm_test.go:24-30 | TestHeap's first push puts 1 on the stack |
| Runs.HeapTestPushesFour | vm_test.go:24-30 | TestHeap's second push puts 4 on top |
| Runs.HeapTestStores | vm_test.go:24-30 | TestHeap's store writes 4 at address 1, growing the heap to [0, 4] and emptying the stack |
| Runs.HeapTestPushesAddress | vm_test.go:24-30 | TestHeap's third push puts the address 1 back |
| Runs.HeapTestRetrieves | vm_test.go:24-30 | TestHeap's retrieve replaces the address with the stored 4 |
| Runs.HeapTestPrints | vm_test.go:24-30 | TestHeap's print-num outputs 4 and empties the stack |
| Runs.HeapTestHalts | vm_test.go:24-30 | TestHeap's closing 河蟹 stops Exec without error |
| Runs.HeapTestStepsUpToStore | vm_test.go:24-30 | TestHeap's first three instructions follow its trace |
| Runs.HeapTestStepsToPrint | vm_test.go:24-30 | TestHeap's fourth to sixth instructions follow its trace |
| Runs.HeapTestPrintsFour | vm_test.go:24-30 | TestHeap's program on a fresh VM outputs 4, ends without error, and leaves heap [0, 4] and an empty stack |
| Runs.ZeroDivisorScans | vm.go:59-76 | the division-by-zero program passes the pre-scan |
| Runs.ZeroDivisorPushesOne | vm.go:237-244 | its first push puts 1 on the stack |
| Runs.ZeroDivisorPushesZero | vm.go:237-244 | its second push puts 0 on top |
| Runs.ZeroDivisorDivides | vm.go:327-331 | its division by the 0 on top pops both operands and stops Exec with the division error |
| Runs.ZeroDivisorPushes | vm.go:237-244 | both of its pushes follow the trace |
| Runs.ZeroDivisorFails | vm.go:327-331 | push 1, push 0, div on a fresh VM fails with the division error, with no output and an empty stack |

## Left out

- OpMath: does not model the 64-bit wrap-around of Go's `+`, `-` and `*` (vm.go:322, 325, 335). It also does not model the wrap of `MinInt64 / -1` back to MinInt64 (vm.go:332). The model computes on unbounded integers, so its results differ from Go's only past 64 bits. Literals are limited to 32 bits.
- OpMath: where Go panics on `%` by zero (vm.go:338), the model returns the `ModuloByZero` fault. A crash of the host process cannot be expressed as a result.
- OpHeap: a store to an address outside 0 .. 65534 returns `HeapInaccessible` and writes nothing. Go records that error and then panics on the write `this.heap[y] = x` (vm.go:362-366).
- OpHeap: a retrieve from an address in range but past the heap's end returns `UnallocatedAddress`. Go panics on the out-of-range index here (vm.go:383).
- OpIo: `string(n)` for print-char (vm.go:101) becomes the abstract item `Char(n)`. UTF-8 encoding, and the replacement of invalid code points by U+FFFD, are not modelled. `fmt.Sprintf("%d", n)` (vm.go:107) becomes `Num(n)`, without the decimal rendering.
- Exec: the interrupter callback (vm.go:79-82) becomes a budget of loop iterations. A callback that decides on other grounds, such as a clock, is not represented. With no interrupter, Go may loop forever; a large budget stands in for that.
- Exec: the result string is a sequence of output items rather than concatenated text. The model returns the VM's state explicitly instead of mutating it.
- ReadInput: the input callback (vm.go:28-52) becomes a `Host` with a fixed list of chunks, which answers "" once they run out. A callback whose answer depends on the output it is shown is not modelled; the output it is shown is recorded.
- ParseNum: every parseNum error collapses into the single fault `BadLiteral`. The texts of the Go errors are dropped: "Can't parse empty number." and strconv's syntax and range errors (vm.go:415, 436).
- Error texts in general: each `errors.New` becomes a `Fault` constructor. The constructor carries the address, label or code that the text would show, but not the text.
- Tokenising: a program is a list of tokens over `Sym`, and UTF-8 bytes are not modelled. Byte-level `strings.HasPrefix`, `strings.LastIndex` and `strings.Trim` on UTF-8 text agree with their symbol-level counterparts used here.
- SetInterrupter and SetInput (vm.go:19-31): configuration, represented by the budget and the `Input` field of the VM.
- Concurrency: the package has none, and a VM is not safe for concurrent use.
- TestOneToTen and TestCall (vm_test.go:16-22, 32-38) are not followed as whole programs: their long traces are too costly to prove. Every instruction they use is covered by the per-instruction lemmas.
- The stack of stack.go holds `interface{}` values. The data stack here holds integers and the call stack holds instruction indices, which are the only values the VM pushes.

=== FILE: control.dfy ===
/**
 * What one Flow instruction does (vm.go:132-221), instruction by
 * instruction: where the counter goes next, what happens to the call stack,
 * and when Exec stops.
 */
module Control {
  import opened Wrappers
  import opened Defs
  import opened Faults
  import opened Numbers
  import opened Io
  import opened Vm
  import Stacks

  /** Instruction i is the Flow instruction with the given code. */
  predicate FlowAt(prog: Program, i: nat, code: Token)
  {
    i < |prog| && HasPrefix(prog[i], FlowFamily) && HasPrefix(prog[i][1..], code)
  }

  /** A Flow instruction is dispatched to the Flow handler. */
  lemma FlowDispatch(prog: Program, labels: Labels, c: Config, i: nat)
    requires i < |prog| && HasPrefix(prog[i], FlowFamily)
    ensures Step(prog, labels, c, i) == StepFlow(labels, c, i, prog[i][1..])
  {
    var cmd := prog[i];
    assert cmd[0] == Horse;
  }

  /** end stops Exec without error, and so does 河蟹. */
  lemma EndHalts(prog: Program, labels: Labels, c: Config, i: nat)
    requires FlowAt(prog, i, End) || (i < |prog| && prog[i] == HeXie)
    ensures Step(prog, labels, c, i) == Halt(c, None)
  {
    if FlowAt(prog, i, End) {
      FlowDispatch(prog, labels, c, i);
    }
  }

  /** A mark does nothing when it is executed: it only moves on to the next instruction. */
  lemma MarkIsSkipped(prog: Program, labels: Labels, c: Config, i: nat)
    requires i < |prog| && IsMark(prog[i])
    ensures Step(prog, labels, c, i) == Next(c, i + 1)
  {
    FlowDispatch(prog, labels, c, i);
    var code := prog[i][1..];
    assert code[0] == Grass && code[1] == Grass;
  }

  /** A call to a label in the table saves its own index and continues just after the label's entry. */
  lemma CallStep(prog: Program, labels: Labels, c: Config, i: nat, n: int)
    requires FlowAt(prog, i, Call) && ParseNum(prog[i][3..], false) == Some(n) && n in labels
    ensures Step(prog, labels, c, i) == Next(c.(calls := [Some(i)] + c.calls), labels[n] + 1)
  {
    FlowDispatch(prog, labels, c, i);
    var code := prog[i][1..];
    assert code[2..] == prog[i][3..];
    assert !HasPrefix(code, End);
  }

  /**
   * A call to a declared label saves its own index and continues just after
   * the last mark of that label; a call to an undeclared label still saves
   * its index, then stops Exec.
   */
  lemma CallEntersAfterMark(prog: Program, labels: Labels, c: Config, i: nat, n: int)
    requires FlowAt(prog, i, Call) && ParseNum(prog[i][3..], false) == Some(n)
    requires ResolvesUpTo(Declarations(prog), |prog|, labels)
    ensures n in labels ==>
      && Step(prog, labels, c, i) == Next(c.(calls := [Some(i)] + c.calls), labels[n] + 1)
      && MarkAt(prog, labels[n], n)
      && forall j :: labels[n] < j ==> !MarkAt(prog, j, n)
    ensures n !in labels ==>
      && Step(prog, labels, c, i) == Halt(c.(calls := [Some(i)] + c.calls), Some(LabelNotFound(n)))
      && forall j :: !MarkAt(prog, j, n)
  {
    FlowDispatch(prog, labels, c, i);
    var code := prog[i][1..];
    assert code[2..] == prog[i][3..];
    assert !HasPrefix(code, End);
    LabelsAreLastMarks(prog, labels, n);
  }

  /** A call whose label does not decode stops Exec and saves nothing. */
  lemma CallWithBadLiteral(prog: Program, labels: Labels, c: Config, i: nat)
    requires FlowAt(prog, i, Call) && ParseNum(prog[i][3..], false).None?
    ensures Step(prog, labels, c, i) == Halt(c, Some(BadLiteral))
  {
    FlowDispatch(prog, labels, c, i);
    assert prog[i][1..][2..] == prog[i][3..];
  }

  /**
   * return pops the saved index and resumes just after it, so execution
   * continues after a call instruction; with no saved index it stops Exec.
   */
  lemma ReturnResumesAfterCall(prog: Program, labels: Labels, c: Config, i: nat)
    requires FlowAt(prog, i, Return) && CallSites(prog, c.calls)
    ensures |c.calls| == 0 ==> Step(prog, labels, c, i) == Halt(c, Some(CannotReturn))
    ensures |c.calls| > 0 ==>
      && Step(prog, labels, c, i) == Next(c.(calls := c.calls[1..]), c.calls[0].value + 1)
      && IsCall(prog[c.calls[0].value])
  {
    FlowDispatch(prog, labels, c, i);
    var code := prog[i][1..];
    assert !HasPrefix(code, End) && !HasPrefix(code, Call);
  }

  /** The return that matches a call resumes just after that call, with the caller's call stack. */
  lemma CallThenReturn(prog: Program, labels: Labels, c: Config, i: nat, n: int, c': Config, j: nat)
    requires FlowAt(prog, i, Call) && ParseNum(prog[i][3..], false) == Some(n) && n in labels
    requires FlowAt(prog, j, Return)
    requires c'.calls == After(Step(prog, labels, c, i)).calls
    ensures Step(prog, labels, c', j) == Next(c'.(calls := c.calls), i + 1)
  {
    FlowDispatch(prog, labels, c, i);
    assert prog[i][1..][2..] == prog[i][3..];
    assert !HasPrefix(prog[i][1..], End);
    FlowDispatch(prog, labels, c', j);
    var code := prog[j][1..];
    assert !HasPrefix(code, End) && !HasPrefix(code, Call);
  }

  /** jump goes to just after the label's mark; an undeclared label falls through; a bad literal stops Exec. */
  lemma JumpGoesAfterMark(prog: Program, labels: Labels, c: Config, i: nat)
    requires FlowAt(prog, i, Jump)
    ensures Step(prog, labels, c, i) == Branch(labels, c, i, prog[i][3..])
  {
    FlowDispatch(prog, labels, c, i);
    var code := prog[i][1..];
    assert code[2..] == prog[i][3..];
    assert !HasPrefix(code, End) && !HasPrefix(code, Call) && !HasPrefix(code, Return);
  }

  /**
   * jump-if-zero and jump-if-negative pop the top; with no top they stop
   * Exec. The label is decoded only when the jump is taken, so a bad label
   * on a jump not taken is never noticed.
   */
  lemma ConditionalJump(prog: Program, labels: Labels, c: Config, i: nat, ifZero: bool)
    requires FlowAt(prog, i, if ifZero then JumpZero else JumpNegative)
    ensures var s := c.vm.stack;
      var c1 := WithStack(c, Stacks.Pop(s).1);
      var taken := |s| > 0 && s[0].Some? && (if ifZero then s[0].value == 0 else s[0].value < 0);
      && (|s| == 0 || s[0].None? ==> Step(prog, labels, c, i) == Halt(c1, Some(EmptyStack)))
      && (taken ==> Step(prog, labels, c, i) == Branch(labels, c1, i, prog[i][3..]))
      && (|s| > 0 && s[0].Some? && !taken ==> Step(prog, labels, c, i) == Next(c1, i + 1))
  {
    FlowDispatch(prog, labels, c, i);
    var code := prog[i][1..];
    assert code[2..] == prog[i][3..];
    assert !HasPrefix(code, End) && !HasPrefix(code, Call) && !HasPrefix(code, Return) && !HasPrefix(code, Jump);
    assert ifZero <==> HasPrefix(code, JumpZero);
  }

  /** The family tests come first: a Stack, Math, Heap or I/O instruction goes to its handler. */
  lemma FamilyDispatch(prog: Program, labels: Labels, c: Config, i: nat)
    requires i < |prog|
    ensures HasPrefix(prog[i], StackFamily) ==> Step(prog, labels, c, i) == StepStack(c, i, prog[i][1..])
    ensures HasPrefix(prog[i], MathFamily) ==> Step(prog, labels, c, i) == StepMath(c, i, prog[i][2..])
    ensures HasPrefix(prog[i], HeapFamily) ==> Step(prog, labels, c, i) == StepHeap(c, i, prog[i][2..])
    ensures HasPrefix(prog[i], IoFamily) ==> Step(prog, labels, c, i) == StepIo(c, i, prog[i][2..])
  {
    var cmd := prog[i];
    if |cmd| > 1 {
      assert HasPrefix(cmd, MathFamily) ==> cmd[0] == Mud && cmd[1] == Grass;
      assert HasPrefix(cmd, HeapFamily) ==> cmd[0] == Mud && cmd[1] == Mud;
      assert HasPrefix(cmd, IoFamily) ==> cmd[0] == Mud && cmd[1] == Horse;
    }
  }
}

=== FILE: defs.dfy ===
/**
 * The instruction vocabulary and the VM record (def.go). Grass-Mud-Horse is an
 * accent of Whitespace: 草 stands for space, 泥 for tab and 马 for line feed.
 * A program is a sequence of tokens; each token is a sequence of symbols.
 */
module Defs {
  import opened Wrappers
  import Stacks

  /** Every character that is not one of the three marker symbols. */
  type Foreign = c: char | c != '草' && c != '泥' && c != '马' witness ' '

  datatype Sym = Grass | Mud | Horse | Other(c: Foreign)

  type Token = seq<Sym>

  /** strings.HasPrefix on tokens, symbol by symbol. */
  predicate HasPrefix(t: Token, p: Token)
    decreases |p|
  {
    |p| == 0 || (|t| > 0 && t[0] == p[0] && HasPrefix(t[1..], p[1..]))
  }

  /** The symbol-wise test agrees with comparing the leading slice. */
  lemma {:induction false} HasPrefixIsSlice(t: Token, p: Token)
    ensures HasPrefix(t, p) <==> |p| <= |t| && t[..|p|] == p
    decreases |p|
  {
    if |p| > 0 && |t| > 0 {
      HasPrefixIsSlice(t[1..], p[1..]);
      if |p| <= |t| && t[..|p|] == p {
        assert t[1..][..|p| - 1] == p[1..];
      }
      if HasPrefix(t, p) {
        assert t[..|p|] == [t[0]] + t[1..][..|p| - 1];
      }
    }
  }

  /** Two prefixes of one token are prefixes of each other. */
  lemma {:induction false} CommonPrefixes(t: Token, p: Token, q: Token)
    requires HasPrefix(t, p) && HasPrefix(t, q) && |p| <= |q|
    ensures HasPrefix(q, p)
    decreases |p|
  {
    if |p| > 0 {
      CommonPrefixes(t[1..], p[1..], q[1..]);
    }
  }

  // Instruction modification parameters (opcode families)
  const StackFamily: Token := [Grass]
  const MathFamily: Token := [Mud, Grass]
  const HeapFamily: Token := [Mud, Mud]
  const FlowFamily: Token := [Horse]
  const IoFamily: Token := [Mud, Horse]

  // Stack manipulation
  const Push: Token := [Grass]
  const Duplicate: Token := [Horse, Grass]
  const Copy: Token := [Mud, Grass]
  const Swap: Token := [Horse, Mud]
  const Discard: Token := [Horse, Horse]
  const Slide: Token := [Mud, Horse]

  // Arithmetic
  const Add: Token := [Grass, Grass]
  const Sub: Token := [Grass, Mud]
  const Mul: Token := [Grass, Horse]
  const Div: Token := [Mud, Grass]
  const Mod: Token := [Mud, Mud]

  // Heap access
  const Store: Token := [Grass]
  const Retrieve: Token := [Mud]

  // Flow control
  const Mark: Token := [Grass, Grass]
  const Call: Token := [Grass, Mud]
  const Jump: Token := [Grass, Horse]
  const JumpZero: Token := [Mud, Grass]
  const JumpNegative: Token := [Mud, Mud]
  const Return: Token := [Mud, Horse]
  const End: Token := [Horse, Horse]
  /** The whole-token halt instruction 河蟹. */
  const HeXie: Token := [Other('河'), Other('蟹')]

  // I/O
  const PrintChar: Token := [Grass, Grass]
  const PrintNum: Token := [Grass, Mud]
  const ScanChar: Token := [Mud, Grass]
  const ScanNum: Token := [Mud, Mud]

  // The literal alphabet
  const Zero: Sym := Grass
  const One: Sym := Mud
  const NumEnd: Sym := Horse

  const Families: seq<Token> := [StackFamily, MathFamily, HeapFamily, FlowFamily, IoFamily]
  const StackCodes: seq<Token> := [Push, Duplicate, Copy, Swap, Discard, Slide]
  const MathCodes: seq<Token> := [Add, Sub, Mul, Div, Mod]
  const HeapCodes: seq<Token> := [Store, Retrieve]
  const FlowCodes: seq<Token> := [Mark, Call, Jump, JumpZero, JumpNegative, Return, End]
  const IoCodes: seq<Token> := [PrintChar, PrintNum, ScanChar, ScanNum]

  /** No code of the table is a prefix of another one. */
  predicate PrefixFree(codes: seq<Token>)
  {
    forall i, j :: 0 <= i < |codes| && 0 <= j < |codes| && i != j ==> !HasPrefix(codes[j], codes[i])
  }

  /** In a prefix-free table at most one code is a prefix of any token, so a chain of prefix tests picks at most one case. */
  lemma {:induction false} PrefixFreeDispatch(codes: seq<Token>, t: Token)
    requires PrefixFree(codes)
    ensures forall i, j :: 0 <= i < |codes| && 0 <= j < |codes| && HasPrefix(t, codes[i]) && HasPrefix(t, codes[j]) ==> i == j
  {
    forall i, j | 0 <= i < |codes| && 0 <= j < |codes| && HasPrefix(t, codes[i]) && HasPrefix(t, codes[j])
      ensures i == j
    {
      if |codes[i]| <= |codes[j]| {
        CommonPrefixes(t, codes[i], codes[j]);
      } else {
        CommonPrefixes(t, codes[j], codes[i]);
      }
    }
  }

  /**
   * The five family prefixes exclude each other: at most one family case of
   * Exec's switch (vm.go:85-92) matches a token, so the order of its cases
   * cannot change which one runs.
   */
  lemma FamiliesAreExclusive(t: Token)
    ensures PrefixFree(Families)
    ensures forall i, j :: 0 <= i < |Families| && 0 <= j < |Families| && HasPrefix(t, Families[i]) && HasPrefix(t, Families[j]) ==> i == j
  {
    PrefixFreeDispatch(Families, t);
  }

  /**
   * The Stack sub-opcodes are prefix-free: by PrefixFreeDispatch at most one
   * case of opStack's switch (vm.go:236-302) matches, so its case order
   * cannot change which one runs.
   */
  lemma StackCodesAreExclusive()
    ensures PrefixFree(StackCodes)
  {
  }

  /**
   * The Math sub-opcodes are five distinct two-symbol codes and the Heap
   * sub-opcodes are distinct: the case order of opMath's switch
   * (vm.go:320-340) and of opHeap's (vm.go:349-385) cannot change which case
   * runs.
   */
  lemma MathAndHeapCodesAreExclusive()
    ensures PrefixFree(MathCodes) && PrefixFree(HeapCodes)
    ensures forall i :: 0 <= i < |MathCodes| ==> |MathCodes[i]| == 2
  {
  }

  /**
   * The Flow sub-opcodes are seven distinct two-symbol codes, so the case
   * order of the flow switch (vm.go:136-219) cannot change which case runs;
   * and 河蟹 starts with no family prefix, so its case (vm.go:220) is reached
   * only after every family test has failed.
   */
  lemma FlowCodesAreExclusive()
    ensures PrefixFree(FlowCodes)
    ensures forall i :: 0 <= i < |FlowCodes| ==> |FlowCodes[i]| == 2
    ensures forall i :: 0 <= i < |Families| ==> !HasPrefix(HeXie, Families[i])
  {
  }

  /**
   * The I/O sub-opcodes are four distinct two-symbol codes, so the case order
   * of the I/O switch (vm.go:96-131) cannot change which case runs; the
   * literal alphabet has three distinct symbols.
   */
  lemma IoCodesAreExclusive()
    ensures PrefixFree(IoCodes)
    ensures forall i :: 0 <= i < |IoCodes| ==> |IoCodes[i]| == 2
    ensures Zero != One && One != NumEnd && Zero != NumEnd
  {
  }

  /** A byte of the input buffer. */
  type byte = x: int | 0 <= x < 256

  /** What print-char and print-num append to the output string. */
  datatype OutItem = Char(code: int) | Num(value: int)

  /**
   * The input collaborator. `NoInput` is an unset callback. `Host` answers the
   * successive refill requests with `chunks` in order (an empty string once they
   * run out) and records in `shown` the output it was handed at each request.
   */
  datatype Input = NoInput | Host(chunks: seq<seq<byte>>, shown: seq<seq<OutItem>>)

  /** The VM fields that outlive one Exec call: data stack, heap, input buffer and input callback. */
  datatype VM = VM(stack: Stacks.Stack<int>, heap: seq<int>, buf: seq<byte>, input: Input)

  /** The locals of one Exec call besides the program counter: the VM, the call stack and the output so far. */
  datatype Config = Config(vm: VM, calls: Stacks.Stack<nat>, out: seq<OutItem>)

  function New(input: Input): (vm: VM)
    ensures |vm.stack| == 0 && |vm.heap| == 0 && |vm.buf| == 0
  {
    VM([], [], [], input)
  }
}

=== FILE: exec.dfy ===
/**
 * Exec (vm.go:55-232): the label pre-scan, the dispatch of one instruction,
 * flow control, and the main loop.
 *
 * A run is a sequence of transitions from program counter to program
 * counter. Every jump sets the counter to the target mark's index, which the
 * loop then increments, so execution resumes just after the mark; a return
 * resumes just after the call it returns to. The interrupter is modelled as a
 * budget: the loop is interrupted when the budget is spent.
 */
module Vm {
  import opened Wrappers
  import opened Defs
  import opened Faults
  import opened Heaps
  import opened Numbers
  import opened Ops
  import opened Io
  import Stacks

  type Program = seq<Token>

  /** Label number to the index of its mark. */
  type Labels = map<int, nat>

  // ----- the label pre-scan -----

  /** A token that the pre-scan treats as a mark: the Flow prefix followed by the mark code. */
  predicate IsMark(t: Token)
  {
    HasPrefix(t, FlowFamily) && HasPrefix(t[1..], Mark)
  }

  /** The label a mark declares, read as an unsigned literal. */
  function MarkLabel(t: Token): Option<int>
    requires IsMark(t)
  {
    ParseNum(t[3..], false)
  }

  /** What an instruction declares: nothing (not a mark), a mark whose literal does not decode, or a mark of a label. */
  function Declared(t: Token): Option<Option<int>>
  {
    if IsMark(t) then Some(MarkLabel(t)) else None
  }

  /** The declarations of a program, instruction by instruction. */
  function Declarations(prog: Program): (d: seq<Option<Option<int>>>)
    ensures |d| == |prog|
    ensures forall i :: 0 <= i < |prog| ==> d[i] == Declared(prog[i])
  {
    seq(|prog|, i requires 0 <= i < |prog| => Declared(prog[i]))
  }

  /** Instruction i is a mark of label n. */
  predicate MarkAt(prog: Program, i: int, n: int)
  {
    0 <= i < |prog| && Declared(prog[i]) == Some(Some(n))
  }

  /** Instruction i is a mark whose literal does not decode. */
  predicate BadMarkAt(prog: Program, i: int)
  {
    0 <= i < |prog| && Declared(prog[i]) == Some(None)
  }

  /**
   * The table maps exactly the labels declared among the first k
   * declarations, each to the last of its marks there.
   */
  ghost predicate ResolvesUpTo(d: seq<Option<Option<int>>>, k: nat, labels: Labels)
  {
    && k <= |d|
    && (forall n :: n in labels ==>
          labels[n] < k && d[labels[n]] == Some(Some(n))
          && forall j :: labels[n] < j < k ==> d[j] != Some(Some(n)))
    && (forall j :: 0 <= j < k && d[j].Some? && d[j].value.Some? ==> d[j].value.value in labels)
  }

  /** The loop of the pre-scan from declaration i on: later marks overwrite earlier ones; a bad mark aborts. */
  function ScanFrom(d: seq<Option<Option<int>>>, i: nat, labels: Labels): Option<Labels>
    decreases |d| - i
  {
    if i >= |d| then Some(labels)
    else match d[i]
      case None => ScanFrom(d, i + 1, labels)
      case Some(None) => None
      case Some(Some(n)) => ScanFrom(d, i + 1, labels[n := i])
  }

  /** A mark of n at i points n at i, and leaves the other labels' last marks in place. */
  lemma ResolvesMark(d: seq<Option<Option<int>>>, i: nat, labels: Labels, n: int)
    requires ResolvesUpTo(d, i, labels) && i < |d| && d[i] == Some(Some(n))
    ensures ResolvesUpTo(d, i + 1, labels[n := i])
  {
    var labels' := labels[n := i];
    forall m | m in labels'
      ensures labels'[m] < i + 1 && d[labels'[m]] == Some(Some(m))
      ensures forall j :: labels'[m] < j < i + 1 ==> d[j] != Some(Some(m))
    {
      if m != n {
        assert labels'[m] == labels[m];
      }
    }
  }

  lemma {:induction false} ScanFromResolves(d: seq<Option<Option<int>>>, i: nat, labels: Labels)
    requires ResolvesUpTo(d, i, labels)
    ensures ScanFrom(d, i, labels).None? <==> exists j :: i <= j < |d| && d[j] == Some(None)
    ensures ScanFrom(d, i, labels).Some? ==> ResolvesUpTo(d, |d|, ScanFrom(d, i, labels).value)
    decreases |d| - i
  {
    if i < |d| {
      match d[i]
      case None =>
        ScanFromResolves(d, i + 1, labels);
      case Some(None) =>
      case Some(Some(n)) =>
        ResolvesMark(d, i, labels, n);
        ScanFromResolves(d, i + 1, labels[n := i]);
    }
  }

  lemma BadDeclarations(prog: Program)
    ensures (exists j :: 0 <= j < |prog| && Declarations(prog)[j] == Some(None)) <==> exists j :: BadMarkAt(prog, j)
  {
    var d := Declarations(prog);
    if exists j :: 0 <= j < |d| && d[j] == Some(None) {
      var j :| 0 <= j < |d| && d[j] == Some(None);
      assert BadMarkAt(prog, j);
    }
    if exists j :: BadMarkAt(prog, j) {
      var j :| BadMarkAt(prog, j);
      assert d[j] == Some(None);
    }
  }

  /**
   * The pre-scan: it fails exactly when some mark's literal does not
   * decode, and otherwise maps every declared label to its last mark.
   */
  function ScanLabels(prog: Program): (r: Option<Labels>)
    ensures r.None? <==> exists j :: BadMarkAt(prog, j)
    ensures r.Some? ==> ResolvesUpTo(Declarations(prog), |prog|, r.value)
  {
    var d := Declarations(prog);
    ScanFromResolves(d, 0, map[]);
    BadDeclarations(prog);
    ScanFrom(d, 0, map[])
  }

  /** The labels of a resolved table: n's entry is a mark of n, and no later instruction marks n. */
  lemma LabelsAreLastMarks(prog: Program, labels: Labels, n: int)
    requires ResolvesUpTo(Declarations(prog), |prog|, labels)
    ensures n in labels <==> exists i :: MarkAt(prog, i, n)
    ensures n in labels ==> MarkAt(prog, labels[n], n) && forall j :: labels[n] < j ==> !MarkAt(prog, j, n)
  {
    var d := Declarations(prog);
    if exists i :: MarkAt(prog, i, n) {
      var i :| MarkAt(prog, i, n);
      assert d[i] == Some(Some(n));
    }
    if n in labels {
      assert d[labels[n]] == Some(Some(n));
      assert MarkAt(prog, labels[n], n);
      forall j | labels[n] < j ensures !MarkAt(prog, j, n) {
        if j < |prog| {
          assert d[j] != Some(Some(n));
        }
      }
    }
  }

  // ----- one instruction -----

  /** What one iteration of the loop leads to: the next counter, or the end of Exec. */
  datatype Transition = Next(c: Config, pc: nat) | Halt(c: Config, err: Option<Fault>)

  /** The configuration a transition leaves. */
  function After(t: Transition): Config
  {
    match t
    case Next(c, _) => c
    case Halt(c, _) => c
  }

  /** The loop's `if err != nil { break }` followed by `i++`. */
  function Continue(c: Config, err: Option<Fault>, i: nat): (r: Transition)
    ensures After(r) == c && (r.Next? ==> r.pc == i + 1)
    ensures r.Halt? <==> err.Some?
  {
    if err.None? then Next(c, i + 1) else Halt(c, err)
  }

  /** Jumping to label lit: a bad literal stops Exec; an unknown label falls through to the next instruction. */
  function Branch(labels: Labels, c: Config, i: nat, lit: Token): (r: Transition)
    ensures ParseNum(lit, false).None? <==> r == Halt(c, Some(BadLiteral))
    ensures ParseNum(lit, false).Some? ==>
      var n := ParseNum(lit, false).value;
      r == Next(c, if n in labels then labels[n] + 1 else i + 1)
  {
    match ParseNum(lit, false)
    case None => Halt(c, Some(BadLiteral))
    case Some(n) => Next(c, if n in labels then labels[n] + 1 else i + 1)
  }

  /** The Flow sub-opcodes, in the order end, call, return, jump, jump-if-zero, jump-if-negative; mark is a no-op. */
  function StepFlow(labels: Labels, c: Config, i: nat, code: Token): (r: Transition)
    ensures After(r).vm == c.vm.(stack := After(r).vm.stack) && After(r).out == c.out
    ensures After(r).calls == c.calls
         || (HasPrefix(code, Call) && After(r).calls == [Some(i)] + c.calls)
         || (|c.calls| > 0 && After(r).calls == c.calls[1..])
    ensures r.Next? ==>
         || r.pc == i + 1
         || (exists n :: n in labels && r.pc == labels[n] + 1)
         || (|c.calls| > 0 && c.calls[0] == Some(r.pc - 1))
  {
    if HasPrefix(code, End) then Halt(c, None)
    else if HasPrefix(code, Call) then
      match ParseNum(code[2..], false)
      case None => Halt(c, Some(BadLiteral))
      case Some(n) =>
        var c1 := c.(calls := Stacks.Push(c.calls, Some(i)));
        if n in labels then Next(c1, labels[n] + 1) else Halt(c1, Some(LabelNotFound(n)))
    else if HasPrefix(code, Return) then
      var (m, calls1) := Stacks.Pop(c.calls);
      var c1 := c.(calls := calls1);
      if m.None? then Halt(c1, Some(CannotReturn)) else Next(c1, m.value + 1)
    else if HasPrefix(code, Jump) then
      Branch(labels, c, i, code[2..])
    else if HasPrefix(code, JumpZero) || HasPrefix(code, JumpNegative) then
      var (m, s1) := Stacks.Pop(c.vm.stack);
      var c1 := WithStack(c, s1);
      if m.None? then Halt(c1, Some(EmptyStack))
      else if (if HasPrefix(code, JumpZero) then m.value == 0 else m.value < 0) then Branch(labels, c1, i, code[2..])
      else Next(c1, i + 1)
    else Next(c, i + 1)
  }

  /** Every label points at an instruction of the program. */
  ghost predicate LabelsIn(prog: Program, labels: Labels)
  {
    forall n :: n in labels ==> labels[n] < |prog|
  }

  /** A call instruction: the Flow prefix followed by the call code. */
  predicate IsCall(t: Token)
  {
    HasPrefix(t, FlowFamily) && HasPrefix(t[1..], Call)
  }

  /** Every saved return point is the index of a call instruction. */
  ghost predicate CallSites(prog: Program, calls: Stacks.Stack<nat>)
  {
    forall k :: 0 <= k < |calls| ==> calls[k].Some? && calls[k].value < |prog| && IsCall(prog[calls[k].value])
  }

  /** A step that keeps the call stack, loses no output and keeps the heap within its bound. */
  ghost predicate Keeps(c: Config, c': Config)
  {
    c'.calls == c.calls && Grows(c, c')
  }

  /** A Stack instruction. */
  function StepStack(c: Config, i: nat, code: Token): (r: Transition)
    ensures Keeps(c, After(r)) && (r.Next? ==> r.pc == i + 1)
  {
    var o := OpStack(c.vm.stack, code);
    Continue(WithStack(c, o.state), o.err, i)
  }

  /** A Math instruction. */
  function StepMath(c: Config, i: nat, code: Token): (r: Transition)
    ensures Keeps(c, After(r)) && (r.Next? ==> r.pc == i + 1)
  {
    var o := OpMath(c.vm.stack, code);
    Continue(WithStack(c, o.state), o.err, i)
  }

  /** A Heap instruction. */
  function StepHeap(c: Config, i: nat, code: Token): (r: Transition)
    ensures Keeps(c, After(r)) && (r.Next? ==> r.pc == i + 1)
  {
    var o := OpHeap(c.vm.stack, c.vm.heap, code);
    Continue(c.(vm := c.vm.(stack := o.state.0, heap := o.state.1)), o.err, i)
  }

  /** An I/O instruction. */
  function StepIo(c: Config, i: nat, code: Token): (r: Transition)
    ensures Keeps(c, After(r)) && (r.Next? ==> r.pc == i + 1)
  {
    var o := OpIo(c, code);
    Continue(o.state, o.err, i)
  }

  /**
   * One iteration of the loop at instruction i: the families are tried in
   * the order Stack, Math, Heap, I/O, Flow, then the 河蟹 terminator; any
   * other token is skipped.
   */
  function Step(prog: Program, labels: Labels, c: Config, i: nat): (r: Transition)
    requires i < |prog|
    ensures Grows(c, After(r))
    ensures LabelsIn(prog, labels) && CallSites(prog, c.calls) && r.Next? ==> r.pc <= |prog|
  {
    var cmd := prog[i];
    if HasPrefix(cmd, StackFamily) then StepStack(c, i, cmd[1..])
    else if HasPrefix(cmd, MathFamily) then StepMath(c, i, cmd[2..])
    else if HasPrefix(cmd, HeapFamily) then StepHeap(c, i, cmd[2..])
    else if HasPrefix(cmd, IoFamily) then StepIo(c, i, cmd[2..])
    else if HasPrefix(cmd, FlowFamily) then
      var r := StepFlow(labels, c, i, cmd[1..]);
      assert Emitted(c.vm, c.out) == Emitted(After(r).vm, After(r).out);
      r
    else if cmd == HeXie then Halt(c, None)
    else Next(c, i + 1)
  }

  /** Only a call pushes onto the call stack, and it pushes its own index: every saved return point stays a call. */
  lemma StepKeepsCallSites(prog: Program, labels: Labels, c: Config, i: nat)
    requires i < |prog| && CallSites(prog, c.calls)
    ensures CallSites(prog, After(Step(prog, labels, c, i)).calls)
  {
    var cmd := prog[i];
    var r := Step(prog, labels, c, i);
    if After(r).calls != c.calls {
      assert HasPrefix(cmd, FlowFamily);
      var code := cmd[1..];
      assert r == StepFlow(labels, c, i, code) by {
        assert cmd[0] == Horse;
      }
      if HasPrefix(code, Call) && After(r).calls == [Some(i)] + c.calls {
        assert IsCall(prog[i]);
      }
    }
  }

  // ----- the loop -----

  /** The loop body as a total function of the configuration and the counter. */
  function Body(prog: Program, labels: Labels): (Config, nat) -> Transition
  {
    (c: Config, i: nat) => if i < |prog| then Step(prog, labels, c, i) else Halt(c, None)
  }

  /**
   * The loop over a program of `size` instructions from counter pc with the
   * given budget: it ends without error when pc runs past the program, and is
   * interrupted when the budget is spent before that.
   */
  function Run(body: (Config, nat) -> Transition, size: nat, c: Config, pc: nat, budget: nat): (r: (Config, Option<Fault>))
    ensures pc >= size ==> r == (c, None)
    ensures pc < size && budget == 0 ==> r == (c, Some(Interrupted))
    decreases budget
  {
    if pc >= size then (c, None)
    else if budget == 0 then (c, Some(Interrupted))
    else
      match body(c, pc)
      case Halt(c', err) => (c', err)
      case Next(c', pc') => Run(body, size, c', pc', budget - 1)
  }

  /** A step loses no output and keeps the heap within its bound. */
  ghost predicate Grows(c: Config, c': Config)
  {
    && Emitted(c.vm, c.out) <= Emitted(c'.vm, c'.out)
    && (|c.vm.heap| <= HeapLimit ==> |c'.vm.heap| <= HeapLimit)
  }

  /** Every step of the body grows. */
  ghost predicate AlwaysGrows(body: (Config, nat) -> Transition)
  {
    forall c: Config, i: nat :: Grows(c, After(body(c, i)))
  }

  lemma BodyGrows(prog: Program, labels: Labels)
    ensures AlwaysGrows(Body(prog, labels))
  {
    forall c: Config, i: nat ensures Grows(c, After(Body(prog, labels)(c, i))) {
      if i < |prog| {
        var r := Step(prog, labels, c, i);
        assert Grows(c, After(r));
      } else {
        assert Emitted(c.vm, c.out) <= Emitted(c.vm, c.out);
      }
    }
  }

  /** A run of a growing body loses no output and keeps the heap within its bound. */
  lemma {:induction false} RunGrows(body: (Config, nat) -> Transition, size: nat, c: Config, pc: nat, budget: nat)
    requires AlwaysGrows(body)
    ensures Grows(c, Run(body, size, c, pc, budget).0)
    decreases budget
  {
    if pc < size && budget > 0 {
      var t := body(c, pc);
      assert Grows(c, After(t));
      if t.Next? {
        RunGrows(body, size, t.c, t.pc, budget - 1);
      }
    } else {
      assert Emitted(c.vm, c.out) <= Emitted(c.vm, c.out);
    }
  }

  /** A run that was not interrupted ends the same way with any larger budget. */
  lemma {:induction false} MoreBudget(body: (Config, nat) -> Transition, size: nat, c: Config, pc: nat, budget: nat, more: nat)
    requires budget <= more && Run(body, size, c, pc, budget).1 != Some(Interrupted)
    ensures Run(body, size, c, pc, more) == Run(body, size, c, pc, budget)
    decreases budget
  {
    if pc < size && budget > 0 {
      var t := body(c, pc);
      if t.Next? {
        MoreBudget(body, size, t.c, t.pc, budget - 1, more - 1);
      }
    }
  }

  /** One iteration of a run that continues. */
  lemma RunNext(body: (Config, nat) -> Transition, size: nat, c: Config, pc: nat, budget: nat, c': Config, pc': nat)
    requires pc < size && budget > 0 && body(c, pc) == Next(c', pc')
    ensures Run(body, size, c, pc, budget) == Run(body, size, c', pc', budget - 1)
  {
  }

  /** One iteration of a run that stops. */
  lemma RunHalt(body: (Config, nat) -> Transition, size: nat, c: Config, pc: nat, budget: nat, c': Config, err: Option<Fault>)
    requires pc < size && budget > 0 && body(c, pc) == Halt(c', err)
    ensures Run(body, size, c, pc, budget) == (c', err)
  {
  }

  /** Exec once the pre-scan has succeeded: the run from instruction 0. */
  lemma ExecRuns(vm: VM, prog: Program, budget: nat)
    requires ScanLabels(prog).Some?
    ensures var r := Run(Body(prog, ScanLabels(prog).value), |prog|, Config(vm, [], []), 0, budget);
      Exec(vm, prog, budget) == Report(r.0.out, r.1, r.0.vm)
  {
  }

  /** An instruction that leads back to itself with nothing changed keeps the loop there until the budget is spent. */
  lemma {:induction false} StuckRun(body: (Config, nat) -> Transition, size: nat, c: Config, pc: nat, budget: nat)
    requires pc < size && body(c, pc) == Next(c, pc)
    ensures Run(body, size, c, pc, budget) == (c, Some(Interrupted))
    decreases budget
  {
    if budget > 0 {
      StuckRun(body, size, c, pc, budget - 1);
    }
  }

  /** A run that steps once onto an instruction that leads back to itself is interrupted, whatever the budget. */
  lemma EntersLoop(body: (Config, nat) -> Transition, size: nat, c: Config, pc: nat, pc': nat, budget: nat)
    requires pc < size && pc' < size && body(c, pc) == Next(c, pc') && body(c, pc') == Next(c, pc')
    ensures Run(body, size, c, pc, budget) == (c, Some(Interrupted))
  {
    if budget > 0 {
      StuckRun(body, size, c, pc', budget - 1);
    }
  }

  /** What Exec returns, together with the VM it leaves for the next call. */
  datatype Report = Report(res: seq<OutItem>, err: Option<Fault>, vm: VM)

  /**
   * Exec: the pre-scan, then the loop from instruction 0 with an empty call
   * stack and empty output. The data stack, heap and input buffer carry over
   * from earlier calls.
   */
  function Exec(vm: VM, prog: Program, budget: nat): (r: Report)
    ensures (exists j :: BadMarkAt(prog, j)) ==> r == Report([], Some(BadLiteral), vm)
    ensures |vm.heap| <= HeapLimit ==> |r.vm.heap| <= HeapLimit
    ensures Emitted(vm, []) <= Emitted(r.vm, r.res)
  {
    match ScanLabels(prog)
    case None => Report([], Some(BadLiteral), vm)
    case Some(labels) =>
      var (c, err) := Run(Body(prog, labels), |prog|, Config(vm, [], []), 0, budget);
      BodyGrows(prog, labels);
      RunGrows(Body(prog, labels), |prog|, Config(vm, [], []), 0, budget);
      Report(c.out, err, c.vm)
  }

  /** An Exec that was not interrupted returns the same with any larger budget. */
  lemma ExecBudget(vm: VM, prog: Program, budget: nat, more: nat)
    requires budget <= more && Exec(vm, prog, budget).err != Some(Interrupted)
    ensures Exec(vm, prog, more) == Exec(vm, prog, budget)
  {
    if ScanLabels(prog).Some? {
      MoreBudget(Body(prog, ScanLabels(prog).value), |prog|, Config(vm, [], []), 0, budget, more);
    }
  }
}

=== FILE: faults.dfy ===
/**
 * The errors Exec can return, one per distinct `errors.New` of vm.go, plus
 * the three faults this model reports where the Go code would panic: `%` by
 * zero, a store to an address outside 0 .. 65534 (Go records the error and
 * then panics on the write; the model keeps the error and writes nothing),
 * and a retrieve past the heap's current end.
 */
module Faults {
  import opened Wrappers
  import opened Defs

  datatype Fault =
    | BadLiteral                         // any parseNum failure
    | NullArguments                      // math with an absent operand
    | DivideByZero
    | ModuloByZero                       // `%` by zero: a Go run-time panic
    | InvalidOperation(code: Token)      // unknown math sub-opcode
    | MissingHeapArgument
    | HeapInaccessible(address: int)     // store outside the address space: the write after it is a Go run-time panic
    | InvalidHeapAddress(address: int)   // retrieve outside the address space
    | UnallocatedAddress(address: int)   // retrieve past the heap's end: a Go run-time panic
    | IllegalOperation(code: Token)      // unknown heap sub-opcode
    | LabelNotFound(name: int)           // call to an undeclared label
    | CannotReturn                       // return with an empty call stack
    | EmptyStack                         // conditional jump on an empty stack
    | BadDigit(b: byte)                  // scan-num read a non-digit
    | Interrupted

  /** A handler's result: the state it leaves, and its error if any. */
  datatype Outcome<S> = Outcome(state: S, err: Option<Fault>)
}

=== FILE: goint.dfy ===
/**
 * Go's integer operators that differ from Dafny's: `/` and `%` truncate
 * toward zero, and strconv's 32-bit range. Go's `int` is 64 bits wide and
 * its `+`, `-` and `*` wrap around; the model computes them on unbounded
 * integers and does not model the wrap-around.
 */
module GoInt {

  const MinInt32: int := -0x8000_0000
  const MaxInt32: int := 0x7fff_ffff

  function Abs(x: int): nat
  {
    if x < 0 then -x else x
  }

  /** Go's y / x: the quotient truncated toward zero. */
  function Quot(y: int, x: int): int
    requires x != 0
  {
    if (y < 0) == (x < 0) then Abs(y) / Abs(x) else -(Abs(y) / Abs(x))
  }

  /** Go's y % x: the remainder that goes with Quot. */
  function Rem(y: int, x: int): int
    requires x != 0
  {
    y - x * Quot(y, x)
  }

  /** The remainder is the Euclidean remainder of the magnitudes, carrying the dividend's sign. */
  lemma RemOfMagnitudes(y: int, x: int)
    requires x != 0
    ensures y >= 0 ==> Rem(y, x) == Abs(y) % Abs(x)
    ensures y < 0 ==> Rem(y, x) == -(Abs(y) % Abs(x))
  {
    if y >= 0 && x > 0 {
    } else if y >= 0 {
      assert Quot(y, x) == -(y / -x);
    } else if x > 0 {
      assert Quot(y, x) == -((-y) / x);
    } else {
      assert Quot(y, x) == (-y) / -x;
    }
  }

  /**
   * The definition of the pair in the Go language specification (section
   * "Arithmetic operators"): y == x * q + r with |r| < |x|, and r is zero or
   * has the sign of the dividend y.
   */
  lemma QuotRem(y: int, x: int)
    requires x != 0
    ensures y == x * Quot(y, x) + Rem(y, x)
    ensures Abs(Rem(y, x)) < Abs(x)
    ensures Rem(y, x) == 0 || (Rem(y, x) < 0 <==> y < 0)
  {
    RemOfMagnitudes(y, x);
  }
}

=== FILE: heap.dfy ===
/**
 * checkHeap (vm.go:392-409): the heap's bounds test and its lazy growth.
 * Addresses run from 0 to 65534; an allocating check appends zero cells one
 * at a time until the address exists.
 */
module Heaps {

  /** One past the highest usable heap address. */
  const HeapLimit: nat := 65535

  /** The append loop of checkHeap: zero cells are added until index i exists. */
  function Grow(heap: seq<int>, i: nat): (r: seq<int>)
    requires |heap| <= i
    ensures |r| == i + 1
    ensures r[..|heap|] == heap
    ensures forall j :: |heap| <= j < |r| ==> r[j] == 0
    decreases i - |heap|
  {
    var h := heap + [0];
    if i < |h| then h else Grow(h, i)
  }

  /**
   * checkHeap(i, alloc): whether i is a usable address, and the heap after the
   * check, grown to cover i when `alloc` is set.
   */
  function CheckHeap(heap: seq<int>, i: int, alloc: bool): (r: (bool, seq<int>))
    ensures r.0 <==> 0 <= i < HeapLimit
    ensures !r.0 || !alloc ==> r.1 == heap
    ensures r.0 && alloc ==> |r.1| == (if i < |heap| then |heap| else i + 1)
    ensures r.0 && alloc ==> forall j :: 0 <= j < |r.1| ==> r.1[j] == (if j < |heap| then heap[j] else 0)
  {
    if i >= HeapLimit || i < 0 then (false, heap)
    else if alloc && i >= |heap| then (true, Grow(heap, i))
    else (true, heap)
  }
}

=== FILE: io.dfy ===
/**
 * Input and output: readInput (vm.go:33-52) and the four I/O sub-opcodes
 * that Exec handles inline (vm.go:92-131).
 *
 * The input callback is a `Host` that hands out its chunks in order. What a
 * program can read is the `Stream`: the buffer, then every chunk in turn,
 * an empty chunk standing for the single blank readInput returns for it.
 * What a program has written is `Emitted`: everything handed to the host at
 * earlier refills, followed by the output still held by Exec.
 */
module Io {
  import opened Wrappers
  import opened Defs
  import opened Faults
  import opened Heaps
  import Stacks

  /** The byte readInput returns when there is nothing to read. */
  const Blank: byte := 32

  /** The bytes the host's chunks contribute, an empty chunk contributing one blank. */
  function Feed(chunks: seq<seq<byte>>): seq<byte>
  {
    if |chunks| == 0 then [] else (if |chunks[0]| == 0 then [Blank] else chunks[0]) + Feed(chunks[1..])
  }

  /** The bytes successive reads return, in order, before they run dry. */
  function Stream(vm: VM): seq<byte>
  {
    match vm.input
    case NoInput => []
    case Host(chunks, _) => vm.buf + Feed(chunks)
  }

  function Concat(xss: seq<seq<OutItem>>): seq<OutItem>
  {
    if |xss| == 0 then [] else Concat(xss[..|xss| - 1]) + xss[|xss| - 1]
  }

  /** All output of the run: what the host was shown at refills, then what Exec still holds. */
  function Emitted(vm: VM, out: seq<OutItem>): seq<OutItem>
  {
    match vm.input
    case NoInput => out
    case Host(_, shown) => Concat(shown) + out
  }

  /** One read: the byte, the VM after it and Exec's output after it. */
  datatype Read = Read(b: byte, vm: VM, out: seq<OutItem>)

  /**
   * readInput. Without a callback it returns a blank. With an empty buffer it
   * hands the output so far to the host, clears that output and refills the
   * buffer from the host's answer; then it takes the buffer's first byte, or a
   * blank when the answer was empty.
   */
  function ReadInput(vm: VM, out: seq<OutItem>): (r: Read)
    ensures vm.input.NoInput? ==> r == Read(Blank, vm, out)
    ensures vm.input.Host? && |Stream(vm)| > 0 ==> [r.b] + Stream(r.vm) == Stream(vm)
    ensures vm.input.Host? && |Stream(vm)| == 0 ==> r.b == Blank && Stream(r.vm) == []
    ensures |vm.buf| > 0 ==> r.out == out && r.vm.input == vm.input
    ensures r.vm.input.Host? <==> vm.input.Host?
    ensures r.vm.stack == vm.stack && r.vm.heap == vm.heap
    ensures Emitted(r.vm, r.out) == Emitted(vm, out)
  {
    match vm.input
    case NoInput => Read(Blank, vm, out)
    case Host(chunks, shown) =>
      if |vm.buf| > 0 then
        Read(vm.buf[0], vm.(buf := vm.buf[1..]), out)
      else
        var answer := if |chunks| > 0 then chunks[0] else [];
        var host := Host(if |chunks| > 0 then chunks[1..] else [], shown + [out]);
        assert Concat(shown + [out]) == Concat(shown) + out by {
          assert (shown + [out])[..|shown|] == shown;
        }
        if |answer| > 0 then Read(answer[0], vm.(buf := answer[1..], input := host), [])
        else Read(Blank, vm.(buf := [], input := host), [])
  }

  /** k successive reads. */
  function ReadMany(vm: VM, out: seq<OutItem>, k: nat): (r: (seq<byte>, VM))
    ensures |r.0| == k
    decreases k
  {
    if k == 0 then ([], vm)
    else
      var rd := ReadInput(vm, out);
      var (rest, vm') := ReadMany(rd.vm, rd.out, k - 1);
      ([rd.b] + rest, vm')
  }

  /** k reads from a host split the stream: the bytes read, then what is left to read. */
  lemma {:induction false} ReadsSplitStream(vm: VM, out: seq<OutItem>, k: nat)
    requires vm.input.Host? && k <= |Stream(vm)|
    ensures ReadMany(vm, out, k).1.input.Host?
    ensures Stream(vm) == ReadMany(vm, out, k).0 + Stream(ReadMany(vm, out, k).1)
    decreases k
  {
    if k > 0 {
      var rd := ReadInput(vm, out);
      assert Stream(vm) == [rd.b] + Stream(rd.vm) && rd.vm.input.Host?;
      ReadsSplitStream(rd.vm, rd.out, k - 1);
      var m := ReadMany(rd.vm, rd.out, k - 1);
      assert ReadMany(vm, out, k) == ([rd.b] + m.0, m.1);
      ConcatAssoc([rd.b], m.0, Stream(m.1));
    } else {
      assert Stream(vm) == [] + Stream(vm);
    }
  }

  /** Successive reads from a host return the stream's bytes in order. */
  lemma ReadsFollowStream(vm: VM, out: seq<OutItem>, k: nat)
    requires vm.input.Host? && k <= |Stream(vm)|
    ensures ReadMany(vm, out, k).0 == Stream(vm)[..k]
    ensures Stream(ReadMany(vm, out, k).1) == Stream(vm)[k..]
  {
    ReadsSplitStream(vm, out, k);
    var (bs, vm') := ReadMany(vm, out, k);
    assert Stream(vm)[..k] == bs && Stream(vm)[k..] == Stream(vm');
  }

  /** Without a callback every read is a blank and nothing changes. */
  lemma {:induction false} NoInputReadsBlanks(vm: VM, out: seq<OutItem>, k: nat)
    requires vm.input.NoInput?
    ensures forall i :: 0 <= i < k ==> ReadMany(vm, out, k).0[i] == Blank
    ensures ReadMany(vm, out, k).1 == vm
    decreases k
  {
    if k > 0 {
      NoInputReadsBlanks(vm, out, k - 1);
      assert ReadInput(vm, out) == Read(Blank, vm, out);
      assert ReadMany(vm, out, k) == ([Blank] + ReadMany(vm, out, k - 1).0, ReadMany(vm, out, k - 1).1);
    }
  }

  /** The value scan-num stores for a byte, and whether the byte was a decimal digit. */
  function DigitValue(b: byte): (r: (int, bool))
    ensures r.1 <==> '0' as int <= b <= '9' as int
    ensures r.1 ==> 0 <= r.0 <= 9 && b == '0' as int + r.0
    ensures !r.1 ==> r.0 == 0
  {
    if '0' as int <= b <= '9' as int then (b - '0' as int, true) else (0, false)
  }

  /** The configuration with a new data stack. */
  function WithStack(c: Config, s: Stacks.Stack<int>): Config
  {
    c.(vm := c.vm.(stack := s))
  }

  /** What print-char (a character) or print-num (a decimal number) appends for v. */
  function Item(v: int, asNumber: bool): OutItem
  {
    if asNumber then Num(v) else Char(v)
  }

  /** What scan-char (the byte itself) or scan-num (the digit's value) stores for b. */
  function Stored(b: byte, asNumber: bool): int
  {
    if asNumber then DigitValue(b).0 else b
  }

  /** print-char and print-num: pop, and append the item when the popped value is present. */
  function Print(c: Config, asNumber: bool): (r: Config)
    ensures r.vm == c.vm.(stack := Stacks.Pop(c.vm.stack).1) && r.calls == c.calls
    ensures |c.vm.stack| > 0 && c.vm.stack[0].Some? ==> r.out == c.out + [Item(c.vm.stack[0].value, asNumber)]
    ensures !(|c.vm.stack| > 0 && c.vm.stack[0].Some?) ==> r.out == c.out
  {
    var (m, s1) := Stacks.Pop(c.vm.stack);
    var c1 := WithStack(c, s1);
    if m.Some? then c1.(out := c.out + [Item(m.value, asNumber)]) else c1
  }

  /**
   * scan-char and scan-num: pop an address; when it is present, read a byte
   * and, when the address is usable, store the value for b there after growing the heap.
   */
  function Scan(c: Config, asNumber: bool): (r: (Config, Option<byte>))
    ensures r.0.calls == c.calls && r.0.vm.stack == Stacks.Pop(c.vm.stack).1
    ensures !(|c.vm.stack| > 0 && c.vm.stack[0].Some?) ==> r == (WithStack(c, Stacks.Pop(c.vm.stack).1), None)
    ensures |c.vm.stack| > 0 && c.vm.stack[0].Some? ==>
      var a := c.vm.stack[0].value;
      var rd := ReadInput(c.vm.(stack := c.vm.stack[1..]), c.out);
      && r.1 == Some(rd.b)
      && r.0.out == rd.out && r.0.vm.buf == rd.vm.buf && r.0.vm.input == rd.vm.input
      && (0 <= a < HeapLimit ==>
            && |r.0.vm.heap| == (if a < |c.vm.heap| then |c.vm.heap| else a + 1)
            && r.0.vm.heap[a] == Stored(rd.b, asNumber)
            && forall j :: 0 <= j < |r.0.vm.heap| && j != a ==>
                 r.0.vm.heap[j] == (if j < |c.vm.heap| then c.vm.heap[j] else 0))
      && (!(0 <= a < HeapLimit) ==> r.0.vm.heap == c.vm.heap)
  {
    var (m, s1) := Stacks.Pop(c.vm.stack);
    if m.None? then (WithStack(c, s1), None)
    else
      var rd := ReadInput(c.vm.(stack := s1), c.out);
      var (ok, h) := CheckHeap(rd.vm.heap, m.value, true);
      var heap := if ok then h[m.value := Stored(rd.b, asNumber)] else h;
      (Config(rd.vm.(heap := heap), c.calls, rd.out), Some(rd.b))
  }

  /** The I/O sub-opcodes, tried in the order print-char, print-num, scan-char, scan-num. */
  function OpIo(c: Config, cmd: Token): (r: Outcome<Config>)
    ensures r.state.calls == c.calls
    ensures |c.vm.heap| <= HeapLimit ==> |r.state.vm.heap| <= HeapLimit
    ensures Emitted(c.vm, c.out) <= Emitted(r.state.vm, r.state.out)
    ensures r.err.Some? ==> HasPrefix(cmd, ScanNum) && exists b: byte :: r.err == Some(BadDigit(b))
    ensures HasPrefix(cmd, PrintChar) ==> r == Outcome(Print(c, false), None)
    ensures HasPrefix(cmd, PrintNum) ==> r == Outcome(Print(c, true), None)
    ensures HasPrefix(cmd, ScanChar) ==> r == Outcome(Scan(c, false).0, None)
    ensures HasPrefix(cmd, ScanNum) ==>
      var (c', b) := Scan(c, true);
      && r.state == c'
      && (r.err.None? <==> b.None? || DigitValue(b.value).1)
    ensures (!HasPrefix(cmd, PrintChar) && !HasPrefix(cmd, PrintNum) && !HasPrefix(cmd, ScanChar)
             && !HasPrefix(cmd, ScanNum)) ==> r == Outcome(c, None)
  {
    if HasPrefix(cmd, PrintChar) then Outcome(Print(c, false), None)
    else if HasPrefix(cmd, PrintNum) then Outcome(Print(c, true), None)
    else if HasPrefix(cmd, ScanChar) then
      Outcome(Scan(c, false).0, None)
    else if HasPrefix(cmd, ScanNum) then
      var (c', b) := Scan(c, true);
      if b.Some? && !DigitValue(b.value).1 then Outcome(c', Some(BadDigit(b.value)))
      else Outcome(c', None)
    else Outcome(c, None)
  }
}

=== FILE: numbers.dfy ===
/**
 * parseNum (vm.go:411-441), the numeric-literal codec used by push, copy,
 * slide and every label. Go's strconv.ParseInt is modelled on characters, so
 * that ASCII digits or signs written inside a token read the way Go reads them.
 * `Reading` is an independent description of which literals written in the
 * three marker symbols are accepted and what they denote.
 */
module Numbers {
  import opened Wrappers
  import opened Defs
  import opened GoInt

  const Space: Sym := Other(' ')

  /** The leading-space half of strings.Trim(str, " "). */
  function TrimLeft(t: Token): (r: Token)
    ensures |r| <= |t| && r == t[|t| - |r|..]
    ensures |r| > 0 ==> r[0] != Space
    ensures forall j :: 0 <= j < |t| - |r| ==> t[j] == Space
    decreases |t|
  {
    if |t| > 0 && t[0] == Space then TrimLeft(t[1..]) else t
  }

  /** The trailing-space half of strings.Trim(str, " "). */
  function TrimRight(t: Token): (r: Token)
    ensures |r| <= |t| && r == t[..|r|]
    ensures |r| > 0 ==> r[|r| - 1] != Space
    ensures forall j :: |r| <= j < |t| ==> t[j] == Space
    decreases |t|
  {
    if |t| > 0 && t[|t| - 1] == Space then TrimRight(t[..|t| - 1]) else t
  }

  function Trim(t: Token): Token
  {
    TrimRight(TrimLeft(t))
  }

  /** strings.LastIndex for one symbol: -1 when absent. */
  function LastIndex(t: Token, x: Sym): (i: int)
    ensures -1 <= i < |t|
    ensures i >= 0 ==> t[i] == x
    ensures forall j :: i < j < |t| ==> t[j] != x
    decreases |t|
  {
    if |t| == 0 then -1
    else if t[|t| - 1] == x then |t| - 1
    else LastIndex(t[..|t| - 1], x)
  }

  /** The character each symbol becomes after the two strings.Replace calls. */
  function Spell(s: Sym): char
  {
    match s
    case Grass => '0'
    case Mud => '1'
    case Horse => '马'
    case Other(c) => c
  }

  function SpellAll(t: Token): seq<char>
  {
    seq(|t|, j requires 0 <= j < |t| => Spell(t[j]))
  }

  predicate IsBinary(s: seq<char>)
  {
    forall j :: 0 <= j < |s| ==> s[j] == '0' || s[j] == '1'
  }

  /** The value of a base-2 numeral, most significant digit first. */
  function BinaryValue(s: seq<char>): nat
    requires IsBinary(s)
  {
    if |s| == 0 then 0 else 2 * BinaryValue(s[..|s| - 1]) + (if s[|s| - 1] == '1' then 1 else 0)
  }

  /**
   * strconv.ParseInt(s, 2, 32): an optional sign, then one or more binary
   * digits whose value fits a signed 32-bit integer.
   */
  function ParseInt32Base2(s: seq<char>): (r: Option<int>)
    ensures r.Some? ==> MinInt32 <= r.value <= MaxInt32
  {
    if |s| == 0 then None
    else
      var neg := s[0] == '-';
      var digits := if s[0] == '+' || s[0] == '-' then s[1..] else s;
      if |digits| == 0 || !IsBinary(digits) then None
      else Signed32(neg, BinaryValue(digits))
  }

  /** A sign and a magnitude as a signed 32-bit value, when it fits. */
  function Signed32(neg: bool, magnitude: nat): (r: Option<int>)
    ensures r.Some? ==> MinInt32 <= r.value <= MaxInt32
    ensures r.Some? ==> Abs(r.value) == magnitude && (r.value < 0 ==> neg) && (r.value > 0 ==> !neg)
    ensures r.None? <==> (if neg then magnitude > -MinInt32 else magnitude > MaxInt32)
  {
    var m: int := magnitude;
    if neg then (if m <= -MinInt32 then Some(-m) else None)
    else (if m <= MaxInt32 then Some(m) else None)
  }

  /** The text handed to ParseInt: a leading 草 is dropped and a leading 泥 becomes '-' when signed. */
  function SignedSpelling(lit: Token, signed: bool): seq<char>
  {
    if signed && |lit| > 0 && lit[0] == Zero then SpellAll(lit[1..])
    else if signed && |lit| > 0 && lit[0] == One then ['-'] + SpellAll(lit[1..])
    else SpellAll(lit)
  }

  /**
   * parseNum: trim spaces, fail on an empty literal, cut at the last 马 when
   * it is not the first symbol, then read the sign and the binary digits.
   */
  function ParseNum(t: Token, signed: bool): (r: Option<int>)
    ensures r.Some? ==> MinInt32 <= r.value <= MaxInt32
    ensures |Trim(t)| == 0 ==> r.None?
  {
    var u := Trim(t);
    if |u| == 0 then None
    else
      var i := LastIndex(u, NumEnd);
      var lit := if i > 0 then u[..i] else u;
      ParseInt32Base2(SignedSpelling(lit, signed))
  }

  // ----- The reading of literals written in the three marker symbols -----

  /** Written only in 草, 泥 and 马. */
  predicate IsPure(t: Token)
  {
    forall j :: 0 <= j < |t| ==> !t[j].Other?
  }

  /** Written only in the two digit symbols 草 (0) and 泥 (1). */
  predicate IsBits(d: Token)
  {
    forall j :: 0 <= j < |d| ==> d[j] == Zero || d[j] == One
  }

  /** The number a string of digit symbols denotes in base 2. */
  function Bits(d: Token): nat
    requires IsBits(d)
  {
    if |d| == 0 then 0 else 2 * Bits(d[..|d| - 1]) + (if d[|d| - 1] == One then 1 else 0)
  }

  /** Index of the first occurrence of `x`, or |t| when absent. */
  function FirstIndex(t: Token, x: Sym): (k: nat)
    ensures k <= |t|
    ensures forall j :: 0 <= j < k ==> t[j] != x
    ensures k < |t| ==> t[k] == x
    decreases |t|
  {
    if |t| == 0 then 0
    else if t[0] == x then 0
    else 1 + FirstIndex(t[1..], x)
  }

  /**
   * The value of a literal body: when signed, a sign symbol (草 positive,
   * 泥 negative) followed by at least one bit; unsigned, at least one bit.
   * The value must lie in the signed 32-bit range.
   */
  function BitsValue(body: Token, signed: bool): (r: Option<int>)
    requires IsBits(body)
  {
    if signed then
      if |body| < 2 then None
      else Signed32(body[0] == One, Bits(body[1..]))
    else if |body| == 0 then None
    else Signed32(false, Bits(body))
  }

  /**
   * A literal is its body up to the first 马; after that 马 anything may
   * follow except a second 马. No 马 at all is also accepted.
   */
  function Reading(t: Token, signed: bool): Option<int>
    requires IsPure(t)
  {
    var k := FirstIndex(t, NumEnd);
    if k < |t| && NumEnd in t[k + 1..] then None
    else BitsValue(t[..k], signed)
  }

  /** Spelling digit symbols gives a binary numeral of the same value. */
  lemma {:induction false} SpellBits(d: Token)
    requires IsBits(d)
    ensures IsBinary(SpellAll(d))
    ensures BinaryValue(SpellAll(d)) == Bits(d)
  {
    if |d| > 0 {
      var d' := d[..|d| - 1];
      SpellBits(d');
      assert SpellAll(d)[..|d| - 1] == SpellAll(d');
    }
  }

  /** ParseInt on an optional '-' followed by digits that do not start with a sign. */
  lemma ParseSigned(neg: bool, digits: seq<char>)
    requires |digits| == 0 || (digits[0] != '+' && digits[0] != '-')
    ensures ParseInt32Base2((if neg then ['-'] else []) + digits)
         == (if |digits| == 0 || !IsBinary(digits) then None else Signed32(neg, BinaryValue(digits)))
  {
    var s := (if neg then ['-'] else []) + digits;
    if neg {
      assert s[1..] == digits;
    } else {
      assert s == digits;
    }
  }

  /** A pure literal spells a binary numeral exactly when it holds no 马. */
  lemma PureSpelling(x: Token)
    requires IsPure(x)
    ensures IsBinary(SpellAll(x)) <==> NumEnd !in x
    ensures NumEnd !in x ==> IsBits(x) && BinaryValue(SpellAll(x)) == Bits(x)
    ensures |x| > 0 ==> SpellAll(x)[0] != '+' && SpellAll(x)[0] != '-'
  {
    if NumEnd in x {
      var j :| 0 <= j < |x| && x[j] == NumEnd;
      assert SpellAll(x)[j] == '马';
    } else {
      SpellBits(x);
    }
  }

  /** After sign handling, a pure literal reads as its bits, and any 马 left in it makes ParseInt fail. */
  lemma SpellingOfPure(lit: Token, signed: bool)
    requires IsPure(lit)
    ensures NumEnd in lit ==> ParseInt32Base2(SignedSpelling(lit, signed)) == None
    ensures NumEnd !in lit ==> IsBits(lit) && ParseInt32Base2(SignedSpelling(lit, signed)) == BitsValue(lit, signed)
  {
    if signed && |lit| > 0 && (lit[0] == Zero || lit[0] == One) {
      var x := lit[1..];
      PureSpelling(x);
      ParseSigned(lit[0] == One, SpellAll(x));
      assert NumEnd in lit <==> NumEnd in x by {
        assert lit == [lit[0]] + x;
      }
      if lit[0] == Zero {
        assert SignedSpelling(lit, signed) == [] + SpellAll(x);
      }
    } else {
      PureSpelling(lit);
      ParseSigned(false, SpellAll(lit));
      assert SignedSpelling(lit, signed) == [] + SpellAll(lit);
    }
  }

  /**
   * For literals written in the marker symbols, parseNum's cut at the last 马
   * agrees with the reading: body up to the first 马, at most one 马.
   */
  lemma ParseNumMatchesReading(t: Token, signed: bool)
    requires IsPure(t)
    ensures ParseNum(t, signed) == Reading(t, signed)
  {
    assert Trim(t) == t by {
      if |t| > 0 {
        assert t[0] != Space && t[|t| - 1] != Space;
      }
    }
    if |t| > 0 {
      var i := LastIndex(t, NumEnd);
      var k := FirstIndex(t, NumEnd);
      if i < 0 {
        assert NumEnd !in t;
        assert k == |t|;
        assert t[..k] == t;
        SpellingOfPure(t, signed);
      } else if i == k {
        assert NumEnd !in t[k + 1..];
        if i > 0 {
          SpellingOfPure(t[..i], signed);
        } else {
          SpellingOfPure(t, signed);
        }
      } else {
        assert k < i;
        assert t[k + 1..][i - k - 1] == NumEnd;
        assert t[..i][k] == NumEnd;
        SpellingOfPure(t[..i], signed);
      }
    }
  }

  // ----- Encoding -----

  function Digit(b: nat): Sym
  {
    if b == 0 then Zero else One
  }

  /** The shortest base-2 spelling of n in digit symbols. */
  function Bin(n: nat): (d: Token)
    ensures |d| > 0 && IsBits(d) && Bits(d) == n
  {
    if n < 2 then [Digit(n)]
    else
      var d := Bin(n / 2) + [Digit(n % 2)];
      assert d[..|d| - 1] == Bin(n / 2);
      d
  }

  predicate Encodable(v: int, signed: bool)
  {
    if signed then MinInt32 <= v <= MaxInt32 else 0 <= v <= MaxInt32
  }

  /** The literal for v: a sign symbol when signed, then the bits of |v|. */
  function Encode(v: int, signed: bool): (t: Token)
    requires Encodable(v, signed)
    ensures IsBits(t) && IsPure(t) && NumEnd !in t
  {
    if signed then [if v < 0 then One else Zero] + Bin(Abs(v)) else Bin(v)
  }

  /** The first 马 of a literal splits it into body and tail. */
  lemma ReadingOfTerminated(t: Token, signed: bool)
    requires IsPure(t)
    ensures NumEnd !in t ==> Reading(t, signed) == BitsValue(t, signed)
    ensures forall body, tail :: t == body + [NumEnd] + tail && NumEnd !in body && NumEnd !in tail ==>
      IsBits(body) && Reading(t, signed) == BitsValue(body, signed)
  {
    if NumEnd !in t {
      assert t[..|t|] == t;
    }
    forall body, tail | t == body + [NumEnd] + tail && NumEnd !in body && NumEnd !in tail
      ensures IsBits(body) && Reading(t, signed) == BitsValue(body, signed)
    {
      assert t[|body|] == NumEnd;
      assert FirstIndex(t, NumEnd) == |body|;
      assert t[..|body|] == body && t[|body| + 1..] == tail;
    }
  }

  /** A literal of bits with no 马 reads as those bits. */
  lemma PlainLiteral(t: Token, signed: bool)
    requires IsBits(t)
    ensures ParseNum(t, signed) == BitsValue(t, signed)
  {
    assert IsPure(t) && NumEnd !in t;
    ReadingOfTerminated(t, signed);
    ParseNumMatchesReading(t, signed);
  }

  /** Bits, then a 马, then symbols without a 马: what follows the 马 is ignored. */
  lemma TerminatedLiteral(body: Token, tail: Token, signed: bool)
    requires IsBits(body) && IsPure(tail) && NumEnd !in tail
    ensures ParseNum(body + [NumEnd] + tail, signed) == BitsValue(body, signed)
  {
    var t := body + [NumEnd] + tail;
    assert NumEnd !in body;
    assert IsPure(t) by {
      forall j | 0 <= j < |t| ensures !t[j].Other? {
        if j < |body| { assert t[j] == body[j]; }
        else if j > |body| { assert t[j] == tail[j - |body| - 1]; }
      }
    }
    ReadingOfTerminated(t, signed);
    ParseNumMatchesReading(t, signed);
  }

  /** A signed literal: the sign symbol, then the bits of the magnitude. */
  lemma SignedLiteral(d: Token, neg: bool)
    requires IsBits(d) && |d| > 0
    ensures ParseNum([if neg then One else Zero] + d, true) == Signed32(neg, Bits(d))
  {
    var t := [if neg then One else Zero] + d;
    assert IsBits(t) && BitsValue(t, true) == Signed32(neg, Bits(d)) by {
      assert t[1..] == d;
      forall j | 0 <= j < |t| ensures t[j] == Zero || t[j] == One {
        if j > 0 { assert t[j] == d[j - 1]; }
      }
    }
    PlainLiteral(t, true);
  }

  /**
   * Round trip: parseNum decodes an encoded literal to the encoded value,
   * also when a 马 terminates it and further digit symbols follow.
   */
  lemma RoundTrip(v: int, signed: bool, tail: Token)
    requires Encodable(v, signed)
    requires IsPure(tail) && NumEnd !in tail
    ensures ParseNum(Encode(v, signed), signed) == Some(v)
    ensures ParseNum(Encode(v, signed) + [NumEnd] + tail, signed) == Some(v)
  {
    var e := Encode(v, signed);
    assert BitsValue(e, signed) == Some(v) by {
      if signed {
        assert e[1..] == Bin(Abs(v));
      }
    }
    PlainLiteral(e, signed);
    TerminatedLiteral(e, tail, signed);
  }

  /** The literals of the package's own parseNum test. */
  lemma ParseNumExamples()
    ensures ParseNum([Mud, Grass, Grass], false) == Some(4)
    ensures ParseNum([Grass, Mud, Grass, Grass], true) == Some(4)
    ensures ParseNum([Mud, Mud, Mud, Grass], true) == Some(-6)
  {
    assert Bits([Mud, Grass, Grass]) == 4 by {
      assert [Mud, Grass, Grass][..2] == [Mud, Grass] && [Mud, Grass][..1] == [Mud] && [Mud][..0] == [];
    }
    assert Bits([Mud, Mud, Grass]) == 6 by {
      assert [Mud, Mud, Grass][..2] == [Mud, Mud] && [Mud, Mud][..1] == [Mud] && [Mud][..0] == [];
    }
    assert Signed32(false, 4) == Some(4) && Signed32(true, 6) == Some(-6);
    assert BitsValue([Mud, Grass, Grass], false) == Some(4);
    assert [Grass, Mud, Grass, Grass] == [Zero] + [Mud, Grass, Grass];
    assert [Mud, Mud, Mud, Grass] == [One] + [Mud, Mud, Grass];
    PlainLiteral([Mud, Grass, Grass], false);
    SignedLiteral([Mud, Grass, Grass], false);
    SignedLiteral([Mud, Mud, Grass], true);
  }

  /** The one-bit signed literals 草泥 (+1) and 草草 (+0). */
  lemma SmallSignedLiterals()
    ensures ParseNum([Grass, Mud], true) == Some(1)
    ensures ParseNum([Grass, Grass], true) == Some(0)
  {
    assert Bits([Mud]) == 1 by { assert [Mud][..0] == []; }
    assert Bits([Grass]) == 0 by { assert [Grass][..0] == []; }
    assert Signed32(false, 1) == Some(1) && Signed32(false, 0) == Some(0);
    assert [Grass, Mud] == [Zero] + [Mud] && [Grass, Grass] == [Zero] + [Grass];
    SignedLiteral([Mud], false);
    SignedLiteral([Grass], false);
  }

  /** The unsigned label 1 followed by its 马. */
  lemma LabelOne()
    ensures ParseNum([Mud, Horse], false) == Some(1)
  {
    assert [Mud, Horse] == [Mud] + [NumEnd] + [];
    assert BitsValue([Mud], false) == Some(1) by {
      assert Bits([Mud]) == 1 by { assert [Mud][..0] == []; }
    }
    assert ParseNum([Mud] + [NumEnd] + [], false) == BitsValue([Mud], false) by {
      TerminatedLiteral([Mud], [], false);
    }
  }

  /** parseNum fails on a literal that is empty once spaces are trimmed. */
  lemma EmptyLiteralFails()
    ensures ParseNum([], true) == None && ParseNum([Space, Space], false) == None
  {
    assert TrimLeft([Space, Space]) == TrimLeft([Space]) by { assert [Space, Space][1..] == [Space]; }
    assert TrimLeft([Space]) == TrimLeft([]) by { assert [Space][1..] == []; }
  }

  /** parseNum fails when an unsigned value exceeds 2^31 - 1. */
  lemma UnsignedOutOfRangeFails(n: nat)
    requires n > MaxInt32
    ensures ParseNum(Bin(n), false) == None
  {
    PlainLiteral(Bin(n), false);
  }

  /** parseNum fails when a signed value leaves [-2^31, 2^31 - 1]; -2^31 itself is accepted. */
  lemma SignedOutOfRangeFails(n: nat)
    requires n > MaxInt32
    ensures ParseNum([Zero] + Bin(n), true) == None
    ensures ParseNum([One] + Bin(n), true) == (if n == -MinInt32 then Some(MinInt32) else None)
  {
    var d := Bin(n);
    assert Signed32(false, n) == None;
    assert Signed32(true, n) == if n == -MinInt32 then Some(MinInt32) else None;
    SignedLiteral(d, false);
    SignedLiteral(d, true);
  }

  /** A 马 in first place is never cut off, so the literal fails. */
  lemma LeadingTerminatorFails(a: Token, signed: bool)
    requires IsPure(a)
    ensures ParseNum([NumEnd] + a, signed) == None
  {
    var t := [NumEnd] + a;
    assert FirstIndex(t, NumEnd) == 0;
    assert t[..0] == [];
    assert Reading(t, signed) == None by {
      if NumEnd !in t[1..] {
        assert BitsValue([], signed) == None;
      }
    }
    ParseNumMatchesReading(t, signed);
  }

  /** The cut at the last 马 leaves any earlier 马 in the literal, so a second 马 fails. */
  lemma SecondTerminatorFails(a: Token, b: Token, c: Token, signed: bool)
    requires IsPure(a) && IsPure(b) && IsPure(c)
    ensures ParseNum(a + [NumEnd] + b + [NumEnd] + c, signed) == None
  {
    var u := a + [NumEnd] + b + [NumEnd] + c;
    assert IsPure(u) by {
      forall j | 0 <= j < |u| ensures !u[j].Other? {
        if j < |a| {
          assert u[j] == a[j];
        } else if j == |a| || j == |a| + 1 + |b| {
        } else if j < |a| + 1 + |b| {
          assert u[j] == b[j - |a| - 1];
        } else {
          assert u[j] == c[j - |a| - 2 - |b|];
        }
      }
    }
    var k := FirstIndex(u, NumEnd);
    assert u[|a|] == NumEnd;
    assert u[|a| + 1 + |b|] == NumEnd;
    assert k <= |a|;
    if k < |a| {
      assert u[k + 1..][|a| - k - 1] == NumEnd;
    } else {
      assert u[k + 1..][|b|] == NumEnd;
    }
    assert NumEnd in u[k + 1..];
    assert Reading(u, signed) == None;
    ParseNumMatchesReading(u, signed);
  }
}

=== FILE: ops.dfy ===
/**
 * The three opcode handlers of vm.go: opStack (235-305), opMath (308-345)
 * and opHeap (348-390). Each one receives the token after its family prefix
 * and works on the data stack (index 0 is the top) and, for opHeap, the heap.
 */
module Ops {
  import opened Wrappers
  import opened Defs
  import opened Faults
  import opened GoInt
  import opened Heaps
  import opened Numbers
  import Stacks

  type DataStack = Stacks.Stack<int>

  /** What `pop` returns: the top, or nil on an empty stack. */
  function Top(s: DataStack): Option<int>
  {
    if |s| == 0 then None else s[0]
  }

  /** The stack left after `k` pops. */
  function Drop(s: DataStack, k: nat): DataStack
  {
    if k <= |s| then s[k..] else []
  }

  /** No nil among the first k entries. */
  predicate Present(s: DataStack, k: nat)
  {
    k <= |s| && forall j :: 0 <= j < k ==> s[j].Some?
  }

  // ----- opStack -----

  /** The first loop of copy: k pops from s, each pushed onto tmp. */
  function PopOnto(s: DataStack, tmp: DataStack, k: int): (DataStack, DataStack)
    decreases k
  {
    if k <= 0 then (s, tmp)
    else
      var (v, s1) := Stacks.Pop(s);
      PopOnto(s1, Stacks.Push(tmp, v), k - 1)
  }

  /** The second loop of copy: values move from tmp back onto s until a nil comes out of tmp. */
  function Restore(tmp: DataStack, s: DataStack): DataStack
    decreases |tmp|
  {
    var (t, tmp1) := Stacks.Pop(tmp);
    if t.None? then s else Restore(tmp1, Stacks.Push(s, t))
  }

  /** Popping k values onto tmp leaves them on tmp in reverse order. */
  lemma {:induction false} PopOntoMoves(s: DataStack, tmp: DataStack, k: nat)
    requires k <= |s|
    ensures PopOnto(s, tmp, k) == (s[k..], Stacks.Reverse(s[..k]) + tmp)
    decreases k
  {
    if k > 0 {
      assert PopOnto(s, tmp, k) == PopOnto(s[1..], [s[0]] + tmp, k - 1);
      PopOntoMoves(s[1..], [s[0]] + tmp, k - 1);
      assert s[1..][k - 1..] == s[k..];
      assert s[..k][1..] == s[1..][..k - 1];
      assert s[..k][0] == s[0];
      assert Stacks.Reverse(s[..k]) == Stacks.Reverse(s[1..][..k - 1]) + [s[0]];
      assert Stacks.Reverse(s[..k]) + tmp == Stacks.Reverse(s[1..][..k - 1]) + ([s[0]] + tmp);
    } else {
      assert s[..k] == [] && s[k..] == s;
      assert Stacks.Reverse(s[..k]) == [];
      assert [] + tmp == tmp;
    }
  }

  /** Without a nil on tmp, restoring moves all of tmp back, reversed. */
  lemma {:induction false} RestoreMoves(tmp: DataStack, s: DataStack)
    requires Present(tmp, |tmp|)
    ensures Restore(tmp, s) == Stacks.Reverse(tmp) + s
    decreases |tmp|
  {
    if |tmp| > 0 {
      RestoreMoves(tmp[1..], [tmp[0]] + s);
    }
  }

  /** copy n: pops n - 1 values aside, duplicates the next one under them, restores them and pushes the copy. */
  function CopyNth(s: DataStack, n: int): (r: DataStack)
    ensures 1 <= n <= |s| && Present(s, n - 1) ==> r == [s[n - 1]] + s
  {
    var (s1, tmp) := PopOnto(s, [], n - 1);
    var (m, s2) := Stacks.Pop(s1);
    var r := Stacks.Push(Restore(tmp, Stacks.Push(s2, m)), m);
    if 1 <= n <= |s| && Present(s, n - 1) then
      CopyRestores(s, n - 1);
      r
    else r
  }

  /** The steps of copy with the n - 1 values above the target present. */
  lemma CopyRestores(s: DataStack, k: nat)
    requires k < |s| && Present(s, k)
    ensures PopOnto(s, [], k) == (s[k..], Stacks.Reverse(s[..k]))
    ensures Stacks.Pop(s[k..]) == (s[k], s[k + 1..])
    ensures Restore(Stacks.Reverse(s[..k]), Stacks.Push(s[k + 1..], s[k])) == s
  {
    PopOntoMoves(s, [], k);
    assert Stacks.Reverse(s[..k]) + [] == Stacks.Reverse(s[..k]);
    Stacks.ReverseIndex(s[..k]);
    assert Present(Stacks.Reverse(s[..k]), k);
    RestoreMoves(Stacks.Reverse(s[..k]), s[k..]);
    Stacks.ReverseReverse(s[..k]);
    assert Stacks.Push(s[k + 1..], s[k]) == s[k..];
    assert s[..k] + s[k..] == s;
  }

  /** The pop loop of slide: k pops. */
  function PopTimes(s: DataStack, k: int): (r: DataStack)
    ensures r == Drop(s, if k < 0 then 0 else k)
    decreases k
  {
    if k <= 0 then s else PopTimes(Stacks.Pop(s).1, k - 1)
  }

  /** slide n: keeps the top and pops n values from beneath it. */
  function SlideN(s: DataStack, n: int): (r: DataStack)
    ensures n >= 0 ==> r == [Top(s)] + Drop(s, n + 1)
  {
    var (m, s1) := Stacks.Pop(s);
    assert n >= 0 && n + 1 <= |s| ==> s1[n..] == s[n + 1..];
    Stacks.Push(PopTimes(s1, n), m)
  }

  /** opStack. Only a literal can fail, and then the stack is untouched. */
  function OpStack(s: DataStack, cmd: Token): (r: Outcome<DataStack>)
    ensures r.err.Some? ==> r == Outcome(s, Some(BadLiteral))
  {
    if HasPrefix(cmd, Push) then
      match ParseNum(cmd[1..], true)
      case None => Outcome(s, Some(BadLiteral))
      case Some(v) => Outcome(Stacks.Push(s, Some(v)), None)
    else if HasPrefix(cmd, Duplicate) then
      var (m, s1) := Stacks.Pop(s);
      Outcome(Stacks.Push(Stacks.Push(s1, m), m), None)
    else if HasPrefix(cmd, Copy) then
      match ParseNum(cmd[2..], true)
      case None => Outcome(s, Some(BadLiteral))
      case Some(n) => Outcome(CopyNth(s, n), None)
    else if HasPrefix(cmd, Swap) then
      var (m, s1) := Stacks.Pop(s);
      var (n, s2) := Stacks.Pop(s1);
      Outcome(Stacks.Push(Stacks.Push(s2, m), n), None)
    else if HasPrefix(cmd, Discard) then
      Outcome(Stacks.Pop(s).1, None)
    else if HasPrefix(cmd, Slide) then
      match ParseNum(cmd[2..], true)
      case None => Outcome(s, Some(BadLiteral))
      case Some(n) => Outcome(SlideN(s, n), None)
    else
      Outcome(s, None)
  }

  /** push pushes a decodable signed literal and fails on any other. */
  lemma PushLiteral(s: DataStack, cmd: Token)
    requires HasPrefix(cmd, Push)
    ensures OpStack(s, cmd) == match ParseNum(cmd[1..], true)
      case None => Outcome(s, Some(BadLiteral))
      case Some(v) => Outcome([Some(v)] + s, None)
  {
  }

  /** duplicate pushes the top twice in its place; on an empty stack it leaves two nils. */
  lemma DuplicateTop(s: DataStack, cmd: Token)
    requires HasPrefix(cmd, Duplicate)
    ensures OpStack(s, cmd) == Outcome([Top(s), Top(s)] + Drop(s, 1), None)
    ensures |s| > 0 ==> OpStack(s, cmd).state == [s[0], s[0]] + s[1..]
  {
    assert !HasPrefix(cmd, Push);
    assert [Top(s)] + ([Top(s)] + Drop(s, 1)) == [Top(s), Top(s)] + Drop(s, 1);
  }

  /** copy n (n >= 1) pushes a copy of the n-th entry from the top and leaves the rest in order. */
  lemma CopyNthEntry(s: DataStack, cmd: Token, n: int)
    requires HasPrefix(cmd, Copy) && ParseNum(cmd[2..], true) == Some(n)
    requires 1 <= n <= |s| && Present(s, n - 1)
    ensures OpStack(s, cmd) == Outcome([s[n - 1]] + s, None)
  {
    assert !HasPrefix(cmd, Push) && !HasPrefix(cmd, Duplicate);
    assert OpStack(s, cmd) == Outcome(CopyNth(s, n), None);
  }

  /** swap exchanges the top two entries. */
  lemma SwapTopTwo(s: DataStack, cmd: Token)
    requires HasPrefix(cmd, Swap) && |s| >= 2
    ensures OpStack(s, cmd) == Outcome([s[1], s[0]] + s[2..], None)
  {
    assert !HasPrefix(cmd, Push) && !HasPrefix(cmd, Duplicate) && !HasPrefix(cmd, Copy);
    assert [s[1]] + ([s[0]] + s[2..]) == [s[1], s[0]] + s[2..];
  }

  /** discard drops the top entry. */
  lemma DiscardTop(s: DataStack, cmd: Token)
    requires HasPrefix(cmd, Discard)
    ensures OpStack(s, cmd) == Outcome(Drop(s, 1), None)
  {
  }

  /** slide n keeps the top and removes the n entries beneath it (all of them on a shallower stack). */
  lemma SlideBelowTop(s: DataStack, cmd: Token, n: int)
    requires HasPrefix(cmd, Slide) && ParseNum(cmd[2..], true) == Some(n) && 0 <= n
    ensures OpStack(s, cmd) == Outcome([Top(s)] + Drop(s, n + 1), None)
    ensures |s| > n ==> OpStack(s, cmd).state == [s[0]] + s[n + 1..]
  {
    assert |cmd| >= 2 && cmd[0] == Mud && cmd[1] == Horse;
    assert !HasPrefix(cmd, Push) && !HasPrefix(cmd, Duplicate) && !HasPrefix(cmd, Copy);
    assert !HasPrefix(cmd, Swap) && !HasPrefix(cmd, Discard);
  }

  /** A token that starts with no Stack sub-opcode does nothing. */
  lemma UnknownStackCode(s: DataStack, cmd: Token)
    requires forall i :: 0 <= i < |StackCodes| ==> !HasPrefix(cmd, StackCodes[i])
    ensures OpStack(s, cmd) == Outcome(s, None)
  {
    assert !HasPrefix(cmd, StackCodes[0]) && !HasPrefix(cmd, StackCodes[1]) && !HasPrefix(cmd, StackCodes[2]);
    assert !HasPrefix(cmd, StackCodes[3]) && !HasPrefix(cmd, StackCodes[4]) && !HasPrefix(cmd, StackCodes[5]);
  }

  /** copy with a count of 1 or less duplicates the top, since the first loop does not run. */
  lemma CopyOfOneDuplicates(s: DataStack, n: int)
    requires n <= 1
    ensures CopyNth(s, n) == [Top(s), Top(s)] + Drop(s, 1)
  {
  }

  // ----- opMath -----

  /** Both operands were popped and are present. */
  predicate HasOperands(s: DataStack)
  {
    |s| >= 2 && s[0].Some? && s[1].Some?
  }

  /**
   * opMath pops x (the top) and y (the next) before looking at the opcode,
   * then pushes y op x. Go's `/` and `%` truncate toward zero.
   */
  function OpMath(s: DataStack, cmd: Token): (r: Outcome<DataStack>)
    ensures !HasOperands(s) ==> r == Outcome(Drop(s, 2), Some(NullArguments))
    ensures HasOperands(s) ==>
      var x, y, below := s[0].value, s[1].value, s[2..];
      && (HasPrefix(cmd, Add) ==> r == Outcome([Some(y + x)] + below, None))
      && (HasPrefix(cmd, Sub) ==> r == Outcome([Some(y - x)] + below, None))
      && (HasPrefix(cmd, Mul) ==> r == Outcome([Some(y * x)] + below, None))
      && (HasPrefix(cmd, Div) ==>
            r == if x == 0 then Outcome(below, Some(DivideByZero)) else Outcome([Some(Quot(y, x))] + below, None))
      && (HasPrefix(cmd, Mod) ==>
            r == if x == 0 then Outcome(below, Some(ModuloByZero)) else Outcome([Some(Rem(y, x))] + below, None))
      && (!HasPrefix(cmd, Add) && !HasPrefix(cmd, Sub) && !HasPrefix(cmd, Mul)
          && !HasPrefix(cmd, Div) && !HasPrefix(cmd, Mod) ==>
            r == Outcome(below, Some(InvalidOperation(cmd))))
  {
    var (m, s1) := Stacks.Pop(s);
    var (n, s2) := Stacks.Pop(s1);
    if m.None? || n.None? then Outcome(s2, Some(NullArguments))
    else
      var x, y := m.value, n.value;
      if HasPrefix(cmd, Add) then Outcome(Stacks.Push(s2, Some(y + x)), None)
      else if HasPrefix(cmd, Sub) then Outcome(Stacks.Push(s2, Some(y - x)), None)
      else if HasPrefix(cmd, Div) then
        if x == 0 then Outcome(s2, Some(DivideByZero)) else Outcome(Stacks.Push(s2, Some(Quot(y, x))), None)
      else if HasPrefix(cmd, Mul) then Outcome(Stacks.Push(s2, Some(y * x)), None)
      else if HasPrefix(cmd, Mod) then
        if x == 0 then Outcome(s2, Some(ModuloByZero)) else Outcome(Stacks.Push(s2, Some(Rem(y, x))), None)
      else Outcome(s2, Some(InvalidOperation(cmd)))
  }

  // ----- opHeap -----

  /**
   * opHeap. store pops the value x, then the address y, and writes heap[y] = x
   * after growing the heap; retrieve pops an address and pushes its cell.
   */
  function OpHeap(s: DataStack, heap: seq<int>, cmd: Token): (r: Outcome<(DataStack, seq<int>)>)
    ensures |heap| <= HeapLimit ==> |r.state.1| <= HeapLimit
    ensures HasPrefix(cmd, Store) ==>
      if !HasOperands(s) then r == Outcome((Drop(s, 2), heap), Some(MissingHeapArgument))
      else
        var x, y := s[0].value, s[1].value;
        if 0 <= y < HeapLimit then
          && r.err.None? && r.state.0 == s[2..]
          && |r.state.1| == (if y < |heap| then |heap| else y + 1)
          && r.state.1[y] == x
          && forall j :: 0 <= j < |r.state.1| && j != y ==> r.state.1[j] == (if j < |heap| then heap[j] else 0)
        else r == Outcome((s[2..], heap), Some(HeapInaccessible(y)))
    ensures HasPrefix(cmd, Retrieve) ==>
      if Top(s).None? then r == Outcome((Drop(s, 1), heap), Some(MissingHeapArgument))
      else
        var x := s[0].value;
        if !(0 <= x < HeapLimit) then r == Outcome((s[1..], heap), Some(InvalidHeapAddress(x)))
        else if x >= |heap| then r == Outcome((s[1..], heap), Some(UnallocatedAddress(x)))
        else r == Outcome(([Some(heap[x])] + s[1..], heap), None)
    ensures !HasPrefix(cmd, Store) && !HasPrefix(cmd, Retrieve) ==> r == Outcome((s, heap), Some(IllegalOperation(cmd)))
  {
    if HasPrefix(cmd, Store) then
      var (m, s1) := Stacks.Pop(s);
      var (n, s2) := Stacks.Pop(s1);
      if m.None? || n.None? then Outcome((s2, heap), Some(MissingHeapArgument))
      else
        var x, y := m.value, n.value;
        var (ok, h) := CheckHeap(heap, y, true);
        if !ok then Outcome((s2, h), Some(HeapInaccessible(y)))
        else Outcome((s2, h[y := x]), None)
    else if HasPrefix(cmd, Retrieve) then
      var (m, s1) := Stacks.Pop(s);
      if m.None? then Outcome((s1, heap), Some(MissingHeapArgument))
      else
        var x := m.value;
        var (ok, h) := CheckHeap(heap, x, false);
        if !ok then Outcome((s1, h), Some(InvalidHeapAddress(x)))
        else if x >= |h| then Outcome((s1, h), Some(UnallocatedAddress(x)))
        else Outcome((Stacks.Push(s1, Some(h[x])), h), None)
    else
      Outcome((s, heap), Some(IllegalOperation(cmd)))
  }

  /** A value stored at an address is what a retrieve of that address pushes, and the retrieve leaves the heap alone. */
  lemma StoreThenRetrieve(s: DataStack, heap: seq<int>, address: int, x: int)
    requires 0 <= address < HeapLimit
    ensures var st := OpHeap([Some(x), Some(address)] + s, heap, Store);
      && st.err.None? && st.state.0 == s
      && OpHeap([Some(address)] + s, st.state.1, Retrieve) == Outcome(([Some(x)] + s, st.state.1), None)
  {
    var st := OpHeap([Some(x), Some(address)] + s, heap, Store);
    assert ([Some(x), Some(address)] + s)[2..] == s;
    assert ([Some(address)] + s)[1..] == s;
  }
}

=== FILE: programs.dfy ===
/**
 * A whole program run through Exec: the endless loop of the package's
 * TestInterrupt (vm_test.go).
 */
module Programs {
  import opened Wrappers
  import opened Defs
  import opened Faults
  import opened Numbers
  import opened Vm
  import opened Control

  // ----- 马草草泥马 马草马泥马: mark 1, jump 1 -----

  const Spin: Program := [[Horse, Grass, Grass, Mud, Horse], [Horse, Grass, Horse, Mud, Horse]]

  /** The first instruction of the endless loop marks label 1. */
  lemma SpinMarksOne()
    ensures Declared(Spin[0]) == Some(Some(1))
  {
    assert IsMark(Spin[0]);
    assert MarkLabel(Spin[0]) == Some(1) by {
      assert Spin[0][3..] == [Mud, Horse];
      LabelOne();
    }
  }

  /** The second instruction of the endless loop is not a mark. */
  lemma SpinJumpIsNoMark()
    ensures Declared(Spin[1]) == None
  {
    assert Spin[1][1..][1] == Horse;
  }

  /** The table of the endless loop: label 1 at its mark. */
  lemma SpinLabels(labels: Labels)
    requires ResolvesUpTo(Declarations(Spin), |Spin|, labels)
    ensures 1 in labels && labels[1] == 0
  {
    SpinMarksOne();
    SpinJumpIsNoMark();
    var d := Declarations(Spin);
    assert d[0].Some? && d[0].value.Some? && d[0].value.value == 1;
    assert labels[1] < 2 && d[labels[1]] == Some(Some(1));
  }

  /** The mark of the endless loop is skipped. */
  lemma SpinMarks(labels: Labels, c: Config)
    ensures Body(Spin, labels)(c, 0) == Next(c, 1)
  {
    MarkIsSkipped(Spin, labels, c, 0);
  }

  /** The jump of the endless loop jumps to itself and changes nothing. */
  lemma SpinJumps(labels: Labels, c: Config)
    requires 1 in labels && labels[1] == 0
    ensures Body(Spin, labels)(c, 1) == Next(c, 1)
  {
    LabelOne();
    assert Spin[1][3..] == [Mud, Horse];
    JumpGoesAfterMark(Spin, labels, c, 1);
  }

  /** The pre-scan of the endless loop succeeds. */
  lemma SpinScans()
    ensures ScanLabels(Spin).Some?
  {
    SpinMarksOne();
    SpinJumpIsNoMark();
    BadDeclarations(Spin);
    forall j | 0 <= j < |Spin| ensures Declarations(Spin)[j] != Some(None) {
      assert j == 0 || j == 1;
    }
  }

  /** The endless loop of TestInterrupt: whatever the budget, Exec is interrupted with no output and no change. */
  lemma SpinIsInterrupted(vm: VM, budget: nat)
    ensures Exec(vm, Spin, budget) == Report([], Some(Interrupted), vm)
  {
    SpinScans();
    var labels := ScanLabels(Spin).value;
    SpinLabels(labels);
    SpinRun(labels, Config(vm, [], []), budget);
    ExecRuns(vm, Spin, budget);
  }

  /** From the start, the endless loop runs until the budget is spent, changing nothing. */
  lemma SpinRun(labels: Labels, c: Config, budget: nat)
    requires 1 in labels && labels[1] == 0
    ensures Run(Body(Spin, labels), |Spin|, c, 0, budget) == (c, Some(Interrupted))
  {
    SpinMarks(labels, c);
    SpinJumps(labels, c);
    EntersLoop(Body(Spin, labels), |Spin|, c, 0, 1, budget);
  }
}

=== FILE: runs.dfy ===
/**
 * Straight-line programs run through Exec from a fresh VM: the
 * store-and-retrieve program of the package's TestHeap (vm_test.go:24-30),
 * and a separate program, push 1, push 0, div, that stops with the division
 * error (vm.go:327-331). Each run is followed instruction by instruction through
 * the configuration before every step.
 */
module Runs {
  import opened Wrappers
  import opened Defs
  import opened Faults
  import opened Numbers
  import opened Ops
  import opened Io
  import opened Vm
  import opened Control

  /** A program without a mark has an empty label table, so its pre-scan succeeds. */
  lemma NoMarksScans(prog: Program)
    requires forall j :: 0 <= j < |prog| ==> !IsMark(prog[j])
    ensures ScanLabels(prog).Some?
  {
  }

  /**
   * A run along a trace: t[j] is the configuration before instruction j, each
   * instruction but the last moves on to the next one, and the last stops
   * with the final configuration t[|t| - 1].
   */
  lemma {:induction false} RunsThrough(body: (Config, nat) -> Transition, t: seq<Config>, k: nat, budget: nat, err: Option<Fault>)
    requires k < |t| - 1 && budget >= |t| - 1 - k
    requires forall j :: k <= j < |t| - 2 ==> body(t[j], j) == Next(t[j + 1], j + 1)
    requires body(t[|t| - 2], |t| - 2) == Halt(t[|t| - 1], err)
    ensures Run(body, |t| - 1, t[k], k, budget) == (t[|t| - 1], err)
    decreases |t| - k
  {
    if k < |t| - 2 {
      RunNext(body, |t| - 1, t[k], k, budget, t[k + 1], k + 1);
      RunsThrough(body, t, k + 1, budget - 1, err);
    } else {
      RunHalt(body, |t| - 1, t[k], k, budget, t[k + 1], err);
    }
  }

  /** A push of a decodable literal pushes its value and moves on. */
  lemma PushStep(c: Config, i: nat, lit: Token, v: int)
    requires ParseNum(lit, true) == Some(v)
    ensures StepStack(c, i, [Grass] + lit) == Next(WithStack(c, [Some(v)] + c.vm.stack), i + 1)
  {
    assert ([Grass] + lit)[1..] == lit;
    PushLiteral(c.vm.stack, [Grass] + lit);
  }

  // ----- 草草草泥 草草草泥草草 泥泥草 草草草泥 泥泥泥 泥马草泥 河蟹 -----

  const HeapTest: Program := [
    [Grass, Grass, Grass, Mud],                 // push 1
    [Grass, Grass, Grass, Mud, Grass, Grass],   // push 4
    [Mud, Mud, Grass],                          // store: heap[1] = 4
    [Grass, Grass, Grass, Mud],                 // push 1
    [Mud, Mud, Mud],                            // retrieve heap[1]
    [Mud, Horse, Grass, Mud],                   // print-num
    HeXie]

  /** The configuration before each instruction of TestHeap, then the one Exec ends with. */
  function HeapTrace(input: Input): seq<Config>
  {
    [ Config(VM([], [], [], input), [], []),
      Config(VM([Some(1)], [], [], input), [], []),
      Config(VM([Some(4), Some(1)], [], [], input), [], []),
      Config(VM([], [0, 4], [], input), [], []),
      Config(VM([Some(1)], [0, 4], [], input), [], []),
      Config(VM([Some(4)], [0, 4], [], input), [], []),
      Config(VM([], [0, 4], [], input), [], [Num(4)]),
      Config(VM([], [0, 4], [], input), [], [Num(4)]) ]
  }

  /** TestHeap declares no label, so its pre-scan succeeds. */
  lemma HeapTestScans()
    ensures ScanLabels(HeapTest).Some?
  {
    forall j | 0 <= j < |HeapTest| ensures !IsMark(HeapTest[j]) {
      assert HeapTest[j][0] != Horse by {
        assert j == 0 || j == 1 || j == 2 || j == 3 || j == 4 || j == 5 || j == 6;
      }
    }
    NoMarksScans(HeapTest);
  }

  /** The first push puts 1, the store's address, on the empty stack. */
  lemma HeapTestPushesOne(labels: Labels, input: Input)
    ensures Body(HeapTest, labels)(HeapTrace(input)[0], 0) == Next(HeapTrace(input)[1], 1)
  {
    var c := Config(VM([], [], [], input), [], []);
    assert HeapTrace(input)[0] == c && HeapTest[0][1..] == [Grass] + [Grass, Mud];
    assert WithStack(c, [Some(1)] + c.vm.stack) == HeapTrace(input)[1];
    assert StepStack(c, 0, [Grass] + [Grass, Mud]) == Next(HeapTrace(input)[1], 1) by {
      SmallSignedLiterals();
      PushStep(c, 0, [Grass, Mud], 1);
    }
    FamilyDispatch(HeapTest, labels, c, 0);
  }

  /** The second push puts 4, the value to store, above it. */
  lemma HeapTestPushesFour(labels: Labels, input: Input)
    ensures Body(HeapTest, labels)(HeapTrace(input)[1], 1) == Next(HeapTrace(input)[2], 2)
  {
    var c := Config(VM([Some(1)], [], [], input), [], []);
    assert HeapTrace(input)[1] == c && HeapTest[1][1..] == [Grass] + [Grass, Mud, Grass, Grass];
    assert WithStack(c, [Some(4)] + c.vm.stack) == HeapTrace(input)[2];
    assert StepStack(c, 1, [Grass] + [Grass, Mud, Grass, Grass]) == Next(HeapTrace(input)[2], 2) by {
      ParseNumExamples();
      PushStep(c, 1, [Grass, Mud, Grass, Grass], 4);
    }
    FamilyDispatch(HeapTest, labels, c, 1);
  }

  /** The store grows the empty heap to two cells and writes 4 into cell 1. */
  lemma HeapTestStores(labels: Labels, input: Input)
    ensures Body(HeapTest, labels)(HeapTrace(input)[2], 2) == Next(HeapTrace(input)[3], 3)
  {
    var c := Config(VM([Some(4), Some(1)], [], [], input), [], []);
    assert HeapTrace(input)[2] == c;
    FamilyDispatch(HeapTest, labels, c, 2);
    var o := OpHeap(c.vm.stack, c.vm.heap, [Grass]);
    assert o.state.0 == [] && |o.state.1| == 2 && o.state.1[1] == 4 && o.state.1[0] == 0;
    assert o.state.1 == [0, 4];
  }

  /** After the store, 1 is pushed again as the address to read. */
  lemma HeapTestPushesAddress(labels: Labels, input: Input)
    ensures Body(HeapTest, labels)(HeapTrace(input)[3], 3) == Next(HeapTrace(input)[4], 4)
  {
    var c := Config(VM([], [0, 4], [], input), [], []);
    assert HeapTrace(input)[3] == c && HeapTest[3][1..] == [Grass] + [Grass, Mud];
    assert WithStack(c, [Some(1)] + c.vm.stack) == HeapTrace(input)[4];
    assert StepStack(c, 3, [Grass] + [Grass, Mud]) == Next(HeapTrace(input)[4], 4) by {
      SmallSignedLiterals();
      PushStep(c, 3, [Grass, Mud], 1);
    }
    FamilyDispatch(HeapTest, labels, c, 3);
  }

  /** The retrieve pushes cell 1. */
  lemma HeapTestRetrieves(labels: Labels, input: Input)
    ensures Body(HeapTest, labels)(HeapTrace(input)[4], 4) == Next(HeapTrace(input)[5], 5)
  {
    var c := Config(VM([Some(1)], [0, 4], [], input), [], []);
    assert HeapTrace(input)[4] == c;
    FamilyDispatch(HeapTest, labels, c, 4);
    assert HeapTest[4][2..] == Retrieve && !HasPrefix(Retrieve, Store);
    assert Top(c.vm.stack) == Some(1) && [Some(c.vm.heap[1])] + c.vm.stack[1..] == [Some(4)];
  }

  /** The print-num pops 4 and prints it. */
  lemma HeapTestPrints(labels: Labels, input: Input)
    ensures Body(HeapTest, labels)(HeapTrace(input)[5], 5) == Next(HeapTrace(input)[6], 6)
  {
    var c := Config(VM([Some(4)], [0, 4], [], input), [], []);
    assert HeapTrace(input)[5] == c;
    FamilyDispatch(HeapTest, labels, c, 5);
  }

  /** 河蟹 stops the run. */
  lemma HeapTestHalts(labels: Labels, input: Input)
    ensures Body(HeapTest, labels)(HeapTrace(input)[6], 6) == Halt(HeapTrace(input)[7], None)
  {
    EndHalts(HeapTest, labels, HeapTrace(input)[6], 6);
  }

  /** The first three instructions of TestHeap move along the trace. */
  lemma HeapTestStepsUpToStore(labels: Labels, input: Input)
    ensures forall j :: 0 <= j < 3 ==> Body(HeapTest, labels)(HeapTrace(input)[j], j) == Next(HeapTrace(input)[j + 1], j + 1)
  {
    forall j | 0 <= j < 3 ensures Body(HeapTest, labels)(HeapTrace(input)[j], j) == Next(HeapTrace(input)[j + 1], j + 1) {
      if j == 0 { HeapTestPushesOne(labels, input); }
      else if j == 1 { HeapTestPushesFour(labels, input); }
      else { HeapTestStores(labels, input); }
    }
  }

  /** The next three instructions of TestHeap move along the trace. */
  lemma HeapTestStepsToPrint(labels: Labels, input: Input)
    ensures forall j :: 3 <= j < 6 ==> Body(HeapTest, labels)(HeapTrace(input)[j], j) == Next(HeapTrace(input)[j + 1], j + 1)
  {
    forall j | 3 <= j < 6 ensures Body(HeapTest, labels)(HeapTrace(input)[j], j) == Next(HeapTrace(input)[j + 1], j + 1) {
      if j == 3 { HeapTestPushesAddress(labels, input); }
      else if j == 4 { HeapTestRetrieves(labels, input); }
      else { HeapTestPrints(labels, input); }
    }
  }

  /** TestHeap on a fresh VM: with enough budget Exec prints 4 and ends without error, leaving 4 in heap cell 1. */
  lemma HeapTestPrintsFour(input: Input, budget: nat)
    requires budget >= 7
    ensures Exec(New(input), HeapTest, budget) == Report([Num(4)], None, VM([], [0, 4], [], input))
  {
    HeapTestScans();
    var labels := ScanLabels(HeapTest).value;
    HeapTestStepsUpToStore(labels, input);
    HeapTestStepsToPrint(labels, input);
    HeapTestHalts(labels, input);
    RunsThrough(Body(HeapTest, labels), HeapTrace(input), 0, budget, None);
    ExecRuns(New(input), HeapTest, budget);
  }

  // ----- push 1; push 0; div -----

  const ZeroDivisor: Program := [
    [Grass, Grass, Grass, Mud],                 // push 1
    [Grass, Grass, Grass, Grass],               // push 0
    [Mud, Grass, Mud, Grass]]                   // div

  /** The configuration before each instruction, then the one Exec ends with. */
  function ZeroDivisorTrace(input: Input): seq<Config>
  {
    [ Config(VM([], [], [], input), [], []),
      Config(VM([Some(1)], [], [], input), [], []),
      Config(VM([Some(0), Some(1)], [], [], input), [], []),
      Config(VM([], [], [], input), [], []) ]
  }

  /** The division program declares no label, so its pre-scan succeeds. */
  lemma ZeroDivisorScans()
    ensures ScanLabels(ZeroDivisor).Some?
  {
    forall j | 0 <= j < |ZeroDivisor| ensures !IsMark(ZeroDivisor[j]) {
      assert ZeroDivisor[j][0] != Horse by {
        assert j == 0 || j == 1 || j == 2;
      }
    }
    NoMarksScans(ZeroDivisor);
  }

  /** push 1 puts the dividend on the empty stack. */
  lemma ZeroDivisorPushesOne(labels: Labels, input: Input)
    ensures Body(ZeroDivisor, labels)(ZeroDivisorTrace(input)[0], 0) == Next(ZeroDivisorTrace(input)[1], 1)
  {
    var c := Config(VM([], [], [], input), [], []);
    assert ZeroDivisorTrace(input)[0] == c && ZeroDivisor[0][1..] == [Grass] + [Grass, Mud];
    assert WithStack(c, [Some(1)] + c.vm.stack) == ZeroDivisorTrace(input)[1];
    assert StepStack(c, 0, [Grass] + [Grass, Mud]) == Next(ZeroDivisorTrace(input)[1], 1) by {
      SmallSignedLiterals();
      PushStep(c, 0, [Grass, Mud], 1);
    }
    FamilyDispatch(ZeroDivisor, labels, c, 0);
  }

  /** push 0 puts the divisor above it. */
  lemma ZeroDivisorPushesZero(labels: Labels, input: Input)
    ensures Body(ZeroDivisor, labels)(ZeroDivisorTrace(input)[1], 1) == Next(ZeroDivisorTrace(input)[2], 2)
  {
    var c := Config(VM([Some(1)], [], [], input), [], []);
    assert ZeroDivisorTrace(input)[1] == c && ZeroDivisor[1][1..] == [Grass] + [Grass, Grass];
    assert WithStack(c, [Some(0)] + c.vm.stack) == ZeroDivisorTrace(input)[2];
    assert StepStack(c, 1, [Grass] + [Grass, Grass]) == Next(ZeroDivisorTrace(input)[2], 2) by {
      SmallSignedLiterals();
      PushStep(c, 1, [Grass, Grass], 0);
    }
    FamilyDispatch(ZeroDivisor, labels, c, 1);
  }

  /** The division pops both operands and stops on the zero divisor. */
  lemma ZeroDivisorDivides(labels: Labels, input: Input)
    ensures Body(ZeroDivisor, labels)(ZeroDivisorTrace(input)[2], 2) == Halt(ZeroDivisorTrace(input)[3], Some(DivideByZero))
  {
    var c := Config(VM([Some(0), Some(1)], [], [], input), [], []);
    assert ZeroDivisorTrace(input)[2] == c;
    FamilyDispatch(ZeroDivisor, labels, c, 2);
    assert OpMath(c.vm.stack, [Mud, Grass]) == Outcome([], Some(DivideByZero));
  }

  /** Both pushes move along the trace. */
  lemma ZeroDivisorPushes(labels: Labels, input: Input)
    ensures forall j :: 0 <= j < 2 ==> Body(ZeroDivisor, labels)(ZeroDivisorTrace(input)[j], j) == Next(ZeroDivisorTrace(input)[j + 1], j + 1)
  {
    forall j | 0 <= j < 2 ensures Body(ZeroDivisor, labels)(ZeroDivisorTrace(input)[j], j) == Next(ZeroDivisorTrace(input)[j + 1], j + 1) {
      if j == 0 { ZeroDivisorPushesOne(labels, input); }
      else { ZeroDivisorPushesZero(labels, input); }
    }
  }

  /** push 1; push 0; div on a fresh VM fails with the division error, prints nothing and leaves an empty stack. */
  lemma ZeroDivisorFails(input: Input, budget: nat)
    requires budget >= 3
    ensures Exec(New(input), ZeroDivisor, budget) == Report([], Some(DivideByZero), New(input))
  {
    ZeroDivisorScans();
    var labels := ScanLabels(ZeroDivisor).value;
    ZeroDivisorPushes(labels, input);
    ZeroDivisorDivides(labels, input);
    RunsThrough(Body(ZeroDivisor, labels), ZeroDivisorTrace(input), 0, budget, Some(DivideByZero));
    ExecRuns(New(input), ZeroDivisor, budget);
  }
}

=== FILE: stack.dfy ===
/**
 * The engine's LIFO container (stack.go). Go stores `interface{}` values in a
 * `container/list`, so nil is a value like any other: `duplicate` on an empty
 * stack pushes two nils. Elements are therefore `Option<T>`, index 0 is the
 * front of the list (the top), and `Pop` yields `None` both for an empty stack
 * and for a stored nil.
 */
module Stacks {
  import opened Wrappers

  type Stack<T> = seq<Option<T>>

  /** push: the value becomes the new front of the list. */
  function Push<T>(s: Stack<T>, v: Option<T>): Stack<T>
  {
    [v] + s
  }

  /** pop: the front value and the remaining stack; nil on an empty stack. */
  function Pop<T>(s: Stack<T>): (Option<T>, Stack<T>)
  {
    if |s| == 0 then (None, s) else (s[0], s[1..])
  }

  /** clear: re-initialises the list. */
  function Clear<T>(s: Stack<T>): (r: Stack<T>)
    ensures |r| == 0
    ensures Pop(r) == (None, r)
  {
    []
  }

  /** A pop right after a push returns the pushed value and the old stack. */
  lemma PushThenPop<T>(s: Stack<T>, v: Option<T>)
    ensures Pop(Push(s, v)) == (v, s)
  {
  }

  /** Popping an empty stack yields nil and leaves it empty. */
  lemma PopEmpty<T>(s: Stack<T>)
    requires |s| == 0
    ensures Pop(s).0.None? && Pop(s).1 == s
  {
  }

  /** Popping a non-empty stack removes exactly the top; pushing it back restores the stack. */
  lemma PopNonEmpty<T>(s: Stack<T>)
    requires |s| > 0
    ensures Pop(s).0 == s[0]
    ensures |Pop(s).1| == |s| - 1
    ensures forall j :: 0 <= j < |s| - 1 ==> Pop(s).1[j] == s[j + 1]
    ensures Push(Pop(s).1, Pop(s).0) == s
  {
  }

  /** Pushing adds one element on top and keeps everything below in order. */
  lemma PushOnTop<T>(s: Stack<T>, v: Option<T>)
    ensures |Push(s, v)| == |s| + 1
    ensures Push(s, v)[0] == v
    ensures Push(s, v)[1..] == s
  {
  }

  function Reverse<T>(xs: seq<T>): (r: seq<T>)
    ensures |r| == |xs|
  {
    if |xs| == 0 then [] else Reverse(xs[1..]) + [xs[0]]
  }

  /** The i-th element of a reversed sequence is the i-th from the end. */
  lemma {:induction false} ReverseIndex<T>(xs: seq<T>)
    ensures forall j :: 0 <= j < |xs| ==> Reverse(xs)[j] == xs[|xs| - 1 - j]
  {
    if |xs| > 0 {
      ReverseIndex(xs[1..]);
    }
  }

  lemma ReverseReverse<T>(xs: seq<T>)
    ensures Reverse(Reverse(xs)) == xs
  {
    ReverseIndex(xs);
    ReverseIndex(Reverse(xs));
  }

  /** Pushes the values of `xs`, first to last. */
  function PushAll<T>(s: Stack<T>, xs: seq<T>): Stack<T>
    decreases |xs|
  {
    if |xs| == 0 then s else PushAll(Push(s, Some(xs[0])), xs[1..])
  }

  /** Pops until nil comes out, collecting the values in pop order (the loop of stack_test.go). */
  function Drain<T>(s: Stack<T>): seq<T>
    decreases |s|
  {
    var (v, rest) := Pop(s);
    if v.None? then [] else [v.value] + Drain(rest)
  }

  /** Values come out in reverse push order, followed by whatever was below them. */
  lemma {:induction false} DrainPushAll<T>(s: Stack<T>, xs: seq<T>)
    ensures Drain(PushAll(s, xs)) == Reverse(xs) + Drain(s)
    decreases |xs|
  {
    if |xs| > 0 {
      DrainPushAll(Push(s, Some(xs[0])), xs[1..]);
      assert Drain(Push(s, Some(xs[0]))) == [xs[0]] + Drain(s);
    }
  }

  /** On a fresh stack, popping until nil returns exactly the pushed values, last first. */
  lemma PopOrderIsReversePushOrder<T>(xs: seq<T>)
    ensures Drain(PushAll([], xs)) == Reverse(xs)
  {
    DrainPushAll([], xs);
  }
}

=== FILE: wrappers.dfy ===
/** Option, the stand-in for Go's nil-or-value interface{} results, and a sequence fact used throughout. */
module Wrappers {

  datatype Option<+T> = None | Some(value: T)

  /** Concatenation regroups freely. */
  lemma ConcatAssoc<T>(a: seq<T>, b: seq<T>, c: seq<T>)
    ensures a + (b + c) == (a + b) + c
  {
  }

}
